=== FILE: README.md ===
# Bengal Voyage client: decision rules and arithmetic

This project models the pure logic of the Bengal Voyage web client. That client is a React front end for booking guided tours in Bangladesh, sharing travel stories and managing tourists, tour guides and admins. The Dafny model covers the rules the pages apply before and after they talk to the server:
- form validation rules and the payloads built from forms;
- pagination windows and page ranges;
- carousel and gallery index arithmetic;
- price breakdowns;
- search filtering and star rows;
- the route guard and the sign-in redirect;
- the API client's bearer header and its reaction to failed requests;
- the colour theme.

Each React component's state is an immutable datatype, and each event handler is a function from state to state. Things the component cannot decide for itself are parameters of those functions:
- a user's answer to a confirmation dialog;
- whether a network request succeeds, and what the image host answers;
- the signed-in user;
- the current time;
- saved browser storage;
- the system colour preference.

JavaScript behaviour the pages rely on is written out:
- truthiness of `a || b` over optional strings and numbers (module `Optional`);
- `%` truncating toward zero (`Numeric.JsRem`);
- `trim()` over the ECMAScript whitespace set;
- `toLowerCase()` on ASCII letters;
- decimal `parseInt` (module `JsText`).

Two status spellings coexist. The tourist's bookings page styles a booking status written `in review`, with a space. The guide's assigned-tours page enables its buttons on `in-review`, with a hyphen. Each module follows its own page, as the code does.

The module layout follows the source tree. There is one module per page or hook, named after it, and there are three shared helper modules (`Optional`, `Numeric`, `JsText`) plus `RouteState`, which holds the router state that the sign-in and registration pages read.

## Model

| member | source | states |
|---|---|---|
| ManageUsers.ListedUsers | src/Pages/DashBoard/ManageUserAdmin/ManageUsersByAdmin.jsx:60 | A present `data` list wins even when empty, then `users`, then the empty list |
| ManageUsers.TotalUsers | src/Pages/DashBoard/ManageUserAdmin/ManageUsersByAdmin.jsx:61 | A zero `pagination.total` falls through to `total`, then to 0 |
| ManageUsers.TotalPages | src/Pages/DashBoard/ManageUserAdmin/ManageUsersByAdmin.jsx:61-62 | The page count is the least number of ten-user pages holding every user; zero exactly when there are no users |
| ManageUsers.PageWindow | src/Pages/DashBoard/ManageUserAdmin/ManageUsersByAdmin.jsx:260-281 | `min(pages, 5)` consecutive buttons starting at `max(1, min(current-2, pages-4))`; for a page in range every button is a real page and the current page has a button |
| ManageUsers.PrevPage | src/Pages/DashBoard/ManageUserAdmin/ManageUsersByAdmin.jsx:255 | « goes one page back and never below page 1 |
| ManageUsers.NextPage | src/Pages/DashBoard/ManageUserAdmin/ManageUsersByAdmin.jsx:287 | » goes one page forward and never past the last page |
| ManageUsers.PrevDisabled | src/Pages/DashBoard/ManageUserAdmin/ManageUsersByAdmin.jsx:256 | « is disabled exactly on page 1 |
| ManageUsers.NextDisabled | src/Pages/DashBoard/ManageUserAdmin/ManageUsersByAdmin.jsx:288 | » is disabled exactly on the last page |
| ManageUsers.ShowPagination | src/Pages/DashBoard/ManageUserAdmin/ManageUsersByAdmin.jsx:250 | The pagination bar is drawn exactly when there is more than one page |
| ManageUsers.ShowEllipsis | src/Pages/DashBoard/ManageUserAdmin/ManageUsersByAdmin.jsx:282-284 | The "..." marker is drawn exactly when there are more than five pages |
| ManageUsers.RoleParam | src/Pages/DashBoard/ManageUserAdmin/ManageUsersByAdmin.jsx:34 | The role query parameter is empty before any role is chosen, else the chosen role |
| ManageUsers.Step | src/Pages/DashBoard/ManageUserAdmin/ManageUsersByAdmin.jsx:173-288 | Editing the search or choosing a role returns to page 1; Previous and Next move one page; a numbered button in the window sets that page; paging leaves the filters alone; disabled, hidden or absent buttons do nothing; the page stays in `[1, pages]` |
| ManageUsers.Row | src/Pages/DashBoard/ManageUserAdmin/ManageUsersByAdmin.jsx:213-226 | A missing role shows as "tourist"; the role selector and Delete are both locked exactly on admin rows |
| ManageUsers.Run | src/Pages/DashBoard/ManageUserAdmin/ManageUsersByAdmin.jsx:173-291 | Interactions applied one after the other against an unchanging page count |
| ManageUsers.RunKeepsPageInRange | src/Pages/DashBoard/ManageUserAdmin/ManageUsersByAdmin.jsx:250-291 | No sequence of clicks and filter edits leads out of `[1, pages]` |
| ManageUsers.RefetchingKeepsPageInRange | src/Pages/DashBoard/ManageUserAdmin/ManageUsersByAdmin.jsx:30-62 | With the page count refetched after each filter edit, the page is always page 1 or a page of the current count |
| MyBookings.ShowingRange | src/Pages/DashBoard/MyBookings.jsx:204-206 | "Showing a to b" has a = (current-1)·pageSize+1 and b = min(current·pageSize, total). On a reachable page of a non-empty list the range lies within `[1, total]`, holds at most one page, and is a full page unless it ends at the last booking |
| MyBookings.Reachable | src/Pages/DashBoard/MyBookings.jsx:183-196 | The pages Previous and Next can lead to: page 1, or a later page that still starts inside the list |
| MyBookings.ShowControls | src/Pages/DashBoard/MyBookings.jsx:183 | The controls are drawn exactly when the bookings do not fit on one page |
| MyBookings.PrevDisabled | src/Pages/DashBoard/MyBookings.jsx:188 | Previous is disabled exactly on page 1 |
| MyBookings.NextDisabled | src/Pages/DashBoard/MyBookings.jsx:195 | Next is disabled exactly once the current page reaches the end of the list |
| MyBookings.RangesTile | src/Pages/DashBoard/MyBookings.jsx:193-206 | When Next is enabled, the next page's range starts right after this page's range |
| MyBookings.Step | src/Pages/DashBoard/MyBookings.jsx:183-226 | With the controls drawn, an enabled Previous moves one page back and an enabled Next one page on. Disabled or undrawn buttons do nothing. Paging changes only the current page and keeps it reachable. A refresh updates only the total |
| MyBookings.ReachableWithinPageCount | src/Pages/DashBoard/MyBookings.jsx:193-196 | Next is disabled once the page reaches the last one, so a reachable page never exceeds the page count |
| MyBookings.Actions | src/Pages/DashBoard/MyBookings.jsx:150-173 | Pay and Cancel exactly on pending bookings, View Details exactly on accepted ones, nothing otherwise |
| MyBookings.StatusBadge | src/Pages/DashBoard/MyBookings.jsx:62-82 | The four known statuses have their own style and label; any other status is grey and shows its raw text |
| BookingForm.AdultsFromInput | src/Pages/Home/TourismAndTravel/BookingForm.jsx:113 | Unparsable text and 0 give 1; otherwise the parsed number; never 0 |
| BookingForm.ChildrenFromInput | src/Pages/Home/TourismAndTravel/BookingForm.jsx:128 | Unparsable text gives 0, otherwise the parsed number |
| BookingForm.CountsRoundTrip | src/Pages/Home/TourismAndTravel/BookingForm.jsx:109-128 | Typing the decimal form of a count stores that count (adults from 1, children from 0) |
| BookingForm.EmptyInputFallbacks | src/Pages/Home/TourismAndTravel/BookingForm.jsx:113-128 | A cleared adults box stores 1 and a cleared children box stores 0 |
| BookingForm.Edit | src/Pages/Home/TourismAndTravel/BookingForm.jsx:109-142 | Each input changes only its own field, and the adult count never becomes 0 |
| BookingForm.Summary | src/Pages/Home/TourismAndTravel/BookingForm.jsx:29-35 | The shown total is the adults' plus the children's part and equals the submitted price; the saving is `(oldPrice - price) * adults` for a truthy old price, else 0 |
| BookingForm.SubmittedPrice | src/Pages/Home/TourismAndTravel/BookingForm.jsx:18 | The price submitted: the full price per adult and half per child |
| BookingForm.BrowserAccepts | src/Pages/Home/TourismAndTravel/BookingForm.jsx:109-142 | The inputs' `min` and `required` attributes pass: at least one adult, no negative children, a guide chosen |
| BookingForm.DiscountIgnoresChildren | src/Pages/Home/TourismAndTravel/BookingForm.jsx:33-35 | The saving does not depend on the number of children |
| BookingForm.TotalInHalfUnits | src/Pages/Home/TourismAndTravel/BookingForm.jsx:18 | For a whole price, twice the total is the whole number `price * (2 * adults + children)`: children pay half |
| BookingForm.VisibleLines | src/Pages/Home/TourismAndTravel/BookingForm.jsx:159-170 | The children line shows exactly for children > 0 and the saving line exactly for a positive saving, never without an old price |
| BookingForm.Submit | src/Pages/Home/TourismAndTravel/BookingForm.jsx:14-26 | Nothing is sent without a user; otherwise the request carries the form's date, guide and counts and the summary's total |
| CommunityStories.OpenStory | src/Pages/CommunityPage/CommunityStroies.jsx:194-197 | Opening a story selects it at image 0 and keeps the rest of the page |
| CommunityStories.CloseModal | src/Pages/CommunityPage/CommunityStroies.jsx:441-457 | Closing clears the selection and nothing else |
| CommunityStories.NavigateModalImage | src/Pages/CommunityPage/CommunityStroies.jsx:99-105 | With images, next and previous stay in range and wrap at both ends; without images nothing changes |
| CommunityStories.ShowGalleryArrows | src/Pages/CommunityPage/CommunityStroies.jsx:501 | The gallery's arrows appear exactly for more than one image |
| CommunityStories.WrapStep | src/Pages/CommunityPage/CommunityStroies.jsx:103 | `(i + d + n) % n` with JavaScript's remainder is the wrapped neighbour of `i` |
| CommunityStories.NextThenPrevious | src/Pages/CommunityPage/CommunityStroies.jsx:99-105 | Next then previous returns to the same image |
| CommunityStories.NextTimesAdvances | src/Pages/CommunityPage/CommunityStroies.jsx:99-105 | `k` clicks on next move the index to `(i + k) mod n` |
| CommunityStories.FullCycle | src/Pages/CommunityPage/CommunityStroies.jsx:99-105 | One click per image comes back to the starting image |
| CommunityStories.ToggleShareMenu | src/Pages/CommunityPage/CommunityStroies.jsx:95-97 | The share menu of a story opens unless that story's menu is open, in which case it closes |
| CommunityStories.ToggleTwice | src/Pages/CommunityPage/CommunityStroies.jsx:95-97 | Toggling the same story's menu twice restores the page |
| CommunityStories.CloseShareMenu | src/Pages/CommunityPage/CommunityStroies.jsx:388-394 | The menu's close button closes every menu and changes nothing else |
| CommunityStories.CloseAgreesWithToggle | src/Pages/CommunityPage/CommunityStroies.jsx:95-97 | Closing an open menu by its close button equals pressing its share button again |
| CommunityStories.AnyNamesUser | src/Pages/CommunityPage/CommunityStroies.jsx:111-113 | True exactly when some entry equals the user's email, `_id` or `id` |
| CommunityStories.CheckIfLiked | src/Pages/CommunityPage/CommunityStroies.jsx:108-114 | Never liked without a user or without a `likedBy` list; otherwise liked exactly when an entry names the user |
| CommunityStories.CardPreview | src/Pages/CommunityPage/CommunityStroies.jsx:174-295 | No images gives the placeholder; otherwise the first `min(n, 3)` images, with "+(n-3)" exactly when there are more than three |
| CommunityStories.SubmitComment | src/Pages/CommunityPage/CommunityStroies.jsx:88-92 | A comment is sent exactly when the text is not all whitespace and a story with a truthy id is open; it carries that id and the untrimmed text |
| CommunityStories.CommentPosted | src/Pages/CommunityPage/CommunityStroies.jsx:77-81 | A successful post clears the comment box; a failed one keeps it |
| CommunityStories.PostDisabled | src/Pages/CommunityPage/CommunityStroies.jsx:578 | Post is disabled for a blank comment or while a comment is posting |
| CommunityStories.SubmitCommentForm | src/Pages/CommunityPage/CommunityStroies.jsx:564-588 | A signed-out visitor has no form and sends nothing; nothing is sent while a comment is posting; otherwise it sends exactly what the handler sends, with the Post button enabled |
| CommunityStories.PostEnabledIffSent | src/Pages/CommunityPage/CommunityStroies.jsx:88-93 | With a story open, the form sends exactly when someone is signed in and the Post button is enabled |
| CommunityStories.Reverse | src/Pages/CommunityPage/CommunityStroies.jsx:595 | Element `i` of the result is element `n-1-i` of the input |
| CommunityStories.DisplayedComments | src/Pages/CommunityPage/CommunityStroies.jsx:594-595 | The stored comments reversed, none when there is no list |
| CommunityStories.DisplayedCommentsReversible | src/Pages/CommunityPage/CommunityStroies.jsx:594-595 | The comments are shown newest first: reversing the shown list gives the stored list |
| StoryCard.ImageGrid | src/Pages/DashBoard/Story/StoryCard.jsx:28-133 | The layout is chosen by image count; the tiles are the first `min(n, 4)` images in order; the overlay exists exactly from five images, on the fourth tile, counting `n-4` |
| StoryCard.GridAccountsForEveryImage | src/Pages/DashBoard/Story/StoryCard.jsx:112-133 | The tiles plus the overlay's count account for every image |
| StoryCard.MoreImagesSameTiles | src/Pages/DashBoard/Story/StoryCard.jsx:112-133 | Images beyond the fourth change the overlay but not the tiles |
| StoryCard.Delete | src/Pages/DashBoard/Story/StoryCard.jsx:8-26 | The delete request is sent exactly on confirmation, and the list is refetched exactly when the server also reports success |
| AllTourGuides.FilterGuides | src/Component/alltourGuidess/AllTourGuides.jsx:22-24 | The result keeps exactly the guides whose lower-cased name includes the lower-cased term |
| AllTourGuides.Matches | src/Component/alltourGuidess/AllTourGuides.jsx:23 | A guide matches when its lower-cased name includes the lower-cased term |
| AllTourGuides.NoResults | src/Component/alltourGuidess/AllTourGuides.jsx:223-225 | "No tour guides found" appears exactly when no guide matches |
| AllTourGuides.FilterAppend | src/Component/alltourGuidess/AllTourGuides.jsx:22-24 | Filtering distributes over concatenation, so the guides' order is kept |
| AllTourGuides.MatchesIffOccurs | src/Component/alltourGuidess/AllTourGuides.jsx:23 | A guide matches exactly when the lower-cased term occurs at some position of the lower-cased name |
| AllTourGuides.ToLowerIdempotent | src/Component/alltourGuidess/AllTourGuides.jsx:23 | Lower-casing twice is lower-casing once |
| AllTourGuides.SearchIgnoresTermCase | src/Component/alltourGuidess/AllTourGuides.jsx:23 | Searching for a lower-cased term finds the same guides as the term itself |
| AllTourGuides.EmptyTermKeepsAll | src/Component/alltourGuidess/AllTourGuides.jsx:22-24 | An empty search shows every guide |
| AllTourGuides.Stars | src/Component/alltourGuidess/AllTourGuides.jsx:91-93 | Five stars, star `i` filled exactly when `i` is below the rating, a missing rating counting as 0 |
| AllTourGuides.StarsFilledPrefix | src/Component/alltourGuidess/AllTourGuides.jsx:204-210 | The filled stars come first |
| AllTourGuides.UnratedShowsNoStar | src/Component/alltourGuidess/AllTourGuides.jsx:91-93 | A guide without a rating shows five empty stars |
| AllTourGuides.ModalShown | src/Component/alltourGuidess/AllTourGuides.jsx:120 | The profile modal is drawn exactly when it is open and a guide is selected |
| AllTourGuides.OpenModal | src/Component/alltourGuidess/AllTourGuides.jsx:26-29 | Opening shows the modal with that guide and keeps the search |
| AllTourGuides.CloseModal | src/Component/alltourGuidess/AllTourGuides.jsx:31-34 | Closing hides the modal and clears the selection, keeping the search |
| AllTourGuides.OpenThenClose | src/Component/alltourGuidess/AllTourGuides.jsx:26-34 | Opening then closing returns to the page as it was |
| AllTourGuides.ClearSearch | src/Component/alltourGuidess/AllTourGuides.jsx:226-227 | "Clear search" empties the term and touches nothing else |
| AllTourGuides.ClearSearchShowsAll | src/Component/alltourGuidess/AllTourGuides.jsx:223-233 | After clearing, every guide is shown, and "no results" remains only if there are no guides |
| RouteState.StateValue | src/Pages/Login/Login.jsx:23 | A key's value is present exactly when the state exists and holds the key |
| RouteState.RedirectTarget | src/Pages/Login/Login.jsx:23 | `state.from` when it is a non-empty string, else "/"; never empty |
| RouteState.RedirectReturnsToFrom | src/Pages/Registation/Registation.jsx:18 | A state recording a path under "from" redirects back to that path |
| Registration.NameError | src/Pages/Registation/Registation.jsx:143-149 | The name is accepted exactly from five UTF-16 code units, as `.length` counts them; empty and short names get their own messages |
| Registration.NameCountsCodeUnits | src/Pages/Registation/Registation.jsx:145-148 | Two emoji and two letters are four characters but six code units, enough for a name |
| Registration.EmailCheckMatchesPattern | src/Pages/Registation/Registation.jsx:196 | The direct check accepts exactly the texts `^[^\s@]+@[^\s@]+\.[^\s@]+$` matches |
| Registration.EmailError | src/Pages/Registation/Registation.jsx:193-198 | Required first, then the pattern, each with its own message; accepted exactly when non-empty and matching |
| Registration.PasswordError | src/Pages/Registation/Registation.jsx:215-231 | Required, six UTF-16 code units, then an upper-case letter, a lower-case letter and a digit, in that order; the first failing rule's message only |
| Registration.HandleImageUpload | src/Pages/Registation/Registation.jsx:33-67 | No file or a failed upload sets its error and keeps the picture; a successful upload stores the URL and clears the error |
| Registration.HandlerRuns | src/Pages/Registation/Registation.jsx:135 | The submit handler runs exactly on an idle page whose fields pass and whose picture carries no error |
| Registration.Submit | src/Pages/Registation/Registation.jsx:70-135 | Nothing happens while a registration is pending, while a field fails, or while a picture error stands. Otherwise, without a picture, the picture error is set and nothing is posted. With one, the "tourist" record is posted with the picture and the submit time. The page then goes to the redirect target exactly when the post and the profile update succeed. Loading always ends false |
| Registration.UploadedPictureIsPosted | src/Pages/Registation/Registation.jsx:52-95 | The URL from a successful upload is the image in the posted record |
| Registration.FailedUploadBlocksSubmit | src/Pages/Registation/Registation.jsx:33-135 | After a missing file or a failed upload, submitting does nothing even with an earlier picture in place; a later successful upload lets the new picture be posted |
| Registration.MissingPictureBlocksResubmit | src/Pages/Registation/Registation.jsx:71-76 | Submitting without a picture sets "Profile picture is required", and every further submission does nothing until a picture is uploaded |
| Login.EmailCheckMatchesPattern | src/Pages/Login/Login.jsx:105 | The direct check accepts exactly the texts `^[A-Z0-9._%+-]+@[A-Z0-9.-]+\.[A-Z]{2,}$` (case-insensitive) matches |
| Login.EmailError | src/Pages/Login/Login.jsx:102-108 | Required first, then the pattern; accepted exactly when non-empty and matching |
| Login.SignInEmailIsRegistrationEmail | src/Pages/Login/Login.jsx:105 | Every address the sign-in page accepts, registration accepts too |
| Login.RegistrationEmailNotAlwaysSignIn | src/Pages/Login/Login.jsx:105 | "a@b.c" registers but is refused at sign-in, for its one-letter suffix |
| Login.PasswordError | src/Pages/Login/Login.jsx:131-137 | Accepted exactly from six UTF-16 code units, with no character-class rule |
| Login.RegistrationPasswordIsSignInPassword | src/Pages/Login/Login.jsx:131-137 | Every registration password passes sign-in, but "abcdef" passes only sign-in |
| Login.FailureMessage | src/Pages/Login/Login.jsx:45-50 | Unknown user and wrong password get their own messages; every other error the default |
| Login.TogglePasswordVisibility | src/Pages/Login/Login.jsx:28-30 | The eye button flips visibility and nothing else |
| Login.ToggleTwice | src/Pages/Login/Login.jsx:28-30 | Two flips restore the page |
| Login.Submit | src/Pages/Login/Login.jsx:32-59 | Runs exactly when no sign-in is pending and both fields pass. Loading is on while pending and off once settled. Success alerts and goes to the redirect target. Failure shows the code's message and stays |
| Login.NoDoubleSignIn | src/Pages/Login/Login.jsx:184-189 | While a sign-in is pending the disabled button starts no second one; once it settles the same form can be sent again |
| AddStory.AddSlot | src/Pages/DashBoard/Story/AddStory.jsx:213-217 | Appends an empty slot below five slots, nothing at five; keeps one to five slots |
| AddStory.RemoveSlot | src/Pages/DashBoard/Story/AddStory.jsx:201-210 | With more than one slot, drops slot `i` and keeps the others in order; keeps one to five slots |
| AddStory.ChooseFile | src/Pages/DashBoard/Story/AddStory.jsx:191-196 | Sets slot `i`'s file and no other slot |
| AddStory.SlotsStayInBounds | src/Pages/DashBoard/Story/AddStory.jsx:24-32 | From the single default slot, any adds, removes and choices keep one to five slots |
| AddStory.InitialSlots | src/Pages/DashBoard/Story/AddStory.jsx:24 | The form starts with one empty slot |
| AddStory.ApplySlotActions | src/Pages/DashBoard/Story/AddStory.jsx:191-217 | Adds, removes and file choices applied in order |
| AddStory.TitleError | src/Pages/DashBoard/Story/AddStory.jsx:137-143 | Accepted exactly from five UTF-16 code units as typed, with its two messages |
| AddStory.DescriptionError | src/Pages/DashBoard/Story/AddStory.jsx:160-166 | Accepted exactly from fifty UTF-16 code units as typed, with its two messages |
| AddStory.FirstSlotError | src/Pages/DashBoard/Story/AddStory.jsx:194-196 | Only the first slot needs a file |
| AddStory.FieldsValid | src/Pages/DashBoard/Story/AddStory.jsx:137-196 | The submit handler runs exactly when the title, the story text and the first slot pass their rules |
| AddStory.AllSlotsFilled | src/Pages/DashBoard/Story/AddStory.jsx:62 | Every slot has a file, the handler's condition for going on to the uploads |
| AddStory.LengthsCheckedBeforeTrim | src/Pages/DashBoard/Story/AddStory.jsx:106-143 | A five-space title passes the rule and is posted empty |
| AddStory.FilledSlotsGiveAllUrls | src/Pages/DashBoard/Story/AddStory.jsx:77-96 | With every slot filled and uploaded, the URLs are exactly the host's answers, slot by slot |
| AddStory.FailureText | src/Pages/DashBoard/Story/AddStory.jsx:94-119 | An unsuccessful answer alerts "Image upload failed"; a thrown error alerts its message, or "Failed to publish story" when that is empty; never an empty text |
| AddStory.FirstFailureUnique | src/Pages/DashBoard/Story/AddStory.jsx:78-96 | At most one slot is the first failing upload |
| AddStory.UploadAll | src/Pages/DashBoard/Story/AddStory.jsx:77-121 | Uploads succeed exactly when every filled slot gets a URL; the URLs come in slot order. Otherwise the first failing slot decides the alert: "Image upload failed" for an unsuccessful answer, the thrown error's message for a rejected request or an unreadable body |
| AddStory.Submit | src/Pages/DashBoard/Story/AddStory.jsx:59-238 | Nothing runs while the story post is pending, or on invalid fields. An empty slot anywhere is refused with its alert before any upload. Uploads start exactly otherwise. A failed upload posts nothing and alerts the first failure's text. Otherwise the story carries the trimmed title and text, the submit time and one URL per slot |
| AddStory.SubmitWhilePublishing | src/Pages/DashBoard/Story/AddStory.jsx:229-238 | A second submit while the first story's post is pending neither uploads nor posts, so one form is not published twice |
| AddPackage.AddDay | src/Pages/DashBoard/AddPackageAdmin/AddPackage.jsx:125 | Appends an empty entry numbered one past the entry count |
| AddPackage.RemoveDay | src/Pages/DashBoard/AddPackageAdmin/AddPackage.jsx:120-122 | With more than one entry, drops entry `i` and keeps the rest in order; never empties the plan |
| AddPackage.ApplyPlanActions | src/Pages/DashBoard/AddPackageAdmin/AddPackage.jsx:120-125 | "+ Add Day" and Remove clicks applied in order |
| AddPackage.PlanNeverEmpty | src/Pages/DashBoard/AddPackageAdmin/AddPackage.jsx:14-125 | No sequence of add and remove clicks leaves the plan without a day |
| AddPackage.AddDayKeepsNumbering | src/Pages/DashBoard/AddPackageAdmin/AddPackage.jsx:125 | Adding to a plan numbered 1, 2, ... keeps it numbered so |
| AddPackage.RemoveThenAddRepeatsDay | src/Pages/DashBoard/AddPackageAdmin/AddPackage.jsx:120-125 | Removing the first of three days and adding one gives two entries numbered 3 |
| AddPackage.DefaultForm | src/Pages/DashBoard/AddPackageAdmin/AddPackage.jsx:11-16 | Empty fields and a plan of one empty day numbered 1 |
| AddPackage.EntryValid | src/Pages/DashBoard/AddPackageAdmin/AddPackage.jsx:104-119 | A plan day passes exactly with a day number of at least 1, a headline and details |
| AddPackage.InvalidFields | src/Pages/DashBoard/AddPackageAdmin/AddPackage.jsx:44-118 | Names exactly the failing fields among the seven with rules: each empty text field, a missing or negative price, a missing day count or one below 1, and the plan when some entry fails |
| AddPackage.Save | src/Pages/DashBoard/AddPackageAdmin/AddPackage.jsx:30-37 | Posts the form exactly when every rule passes; a successful save resets to the defaults, otherwise the form is kept |
| AddPackage.DefaultFormIsNotSaved | src/Pages/DashBoard/AddPackageAdmin/AddPackage.jsx:11-16 | The defaults fail the rules, so a fresh form cannot be saved |
| AddPackage.CompleteFormIsSaved | src/Pages/DashBoard/AddPackageAdmin/AddPackage.jsx:37-118 | A form whose every field passes is posted as it stands |
| AddPackage.FailingFieldBlocksSave | src/Pages/DashBoard/AddPackageAdmin/AddPackage.jsx:37-118 | Any one failing field blocks the post and keeps the form |
| AddPackage.NewDayBlocksSave | src/Pages/DashBoard/AddPackageAdmin/AddPackage.jsx:110-125 | A day just added has no headline, so the form cannot be saved until it is filled in |
| AssignedTours.ToursOf | src/Pages/DashBoard/AssignedTours.jsx/AssignedTours.jsx:23 | The tours are `data` when it is an array, otherwise none |
| AssignedTours.NonArrayShowsEmpty | src/Pages/DashBoard/AssignedTours.jsx/AssignedTours.jsx:23-66 | Any non-array response shows the empty message |
| AssignedTours.ShowEmptyMessage | src/Pages/DashBoard/AssignedTours.jsx/AssignedTours.jsx:63-66 | "No tours assigned to you yet." replaces the table exactly when there are no tours |
| AssignedTours.BadgeClass | src/Pages/DashBoard/AssignedTours.jsx/AssignedTours.jsx:88-92 | pending, in-review and accepted have their own badge; anything else is an error badge |
| AssignedTours.ActionsEnabled | src/Pages/DashBoard/AssignedTours.jsx/AssignedTours.jsx:100-111 | Accept and Reject are enabled exactly on tours "in-review" |
| AssignedTours.EnabledIffInfoBadge | src/Pages/DashBoard/AssignedTours.jsx/AssignedTours.jsx:88-111 | The buttons are live exactly on rows with the info badge |
| AssignedTours.ClickAccept | src/Pages/DashBoard/AssignedTours.jsx/AssignedTours.jsx:98-104 | Accept sends that tour's accept request exactly when the tour is in review |
| AssignedTours.ClickReject | src/Pages/DashBoard/AssignedTours.jsx/AssignedTours.jsx:105-115 | Reject sends that tour's reject request exactly when the tour is in review and the user confirms |
| AssignedTours.SettledToursAreInert | src/Pages/DashBoard/AssignedTours.jsx/AssignedTours.jsx:100-111 | A tour not in review gets no request from either button |
| ManageCandidates.RemoveApplication | src/Pages/DashBoard/ManageCandidates/ManageCandidates.jsx:32-37 | Deleting an application keeps exactly the other applications, none more often than before |
| ManageCandidates.RemoveAppend | src/Pages/DashBoard/ManageCandidates/ManageCandidates.jsx:32-37 | Deleting distributes over concatenation, so the remaining applications keep their order |
| ManageCandidates.RemoveAround | src/Pages/DashBoard/ManageCandidates/ManageCandidates.jsx:32-37 | Deleting from a list cut around one position deletes from each of the three parts |
| ManageCandidates.RemoveMatching | src/Pages/DashBoard/ManageCandidates/ManageCandidates.jsx:32-37 | The application with the deleted id goes |
| ManageCandidates.RemoveOnlyThatOne | src/Pages/DashBoard/ManageCandidates/ManageCandidates.jsx:32-37 | Deleting an id held once, at position i, leaves exactly the list without position i, in order |
| ManageCandidates.RemoveAbsentIsIdentity | src/Pages/DashBoard/ManageCandidates/ManageCandidates.jsx:32-37 | Deleting an id no application has changes nothing |
| ManageCandidates.RemoveIdempotent | src/Pages/DashBoard/ManageCandidates/ManageCandidates.jsx:32-37 | Deleting twice is deleting once |
| ManageCandidates.Approve | src/Pages/DashBoard/ManageCandidates/ManageCandidates.jsx:39-72 | Confirmation starts both requests and shows the success alert whatever they return; each request's success has its own effect; a cancelled dialog changes nothing |
| ManageCandidates.Reject | src/Pages/DashBoard/ManageCandidates/ManageCandidates.jsx:74-103 | Confirmation starts only the deletion and always shows the 'Rejected!' alert; roles never change; a cancelled dialog changes nothing |
| ManageCandidates.ApprovalCompletes | src/Pages/DashBoard/ManageCandidates/ManageCandidates.jsx:24-57 | A fully successful approval makes the applicant a guide, removes the application, and changes no other user's role |
| ManageCandidates.ApproveAndRejectRemoveAlike | src/Pages/DashBoard/ManageCandidates/ManageCandidates.jsx:52-88 | Approve and Reject leave the same application list |
| ManageCandidates.RoleLabel | src/Pages/DashBoard/ManageCandidates/ManageCandidates.jsx:155 | A falsy current role shows as "Tourist" |
| ManageCandidates.ShowEmptyState | src/Pages/DashBoard/ManageCandidates/ManageCandidates.jsx:123-192 | "No pending applications" shows unless the response has a non-empty `data` list |
| SecureApi.Authorize | src/Hooks/Api/UseAxiosSecureApi.jsx:13-16 | With a user, the header is "Bearer " followed by the token, and the other headers are kept; without a user the request is rejected |
| SecureApi.TokenRecoverable | src/Hooks/Api/UseAxiosSecureApi.jsx:15 | Different tokens give different headers |
| SecureApi.OnErrorWith | src/Hooks/Api/UseAxiosSecureApi.jsx:27-41 | 403 goes to "/forbidden". 401 signs out and goes to "/login" only once sign-out succeeds, or throws a TypeError when the sign-out function is missing. Other errors are rejected again untouched |
| SecureApi.OnErrorAsWritten | src/Hooks/Api/UseAxiosSecureApi.jsx:12-40 | With the sign-out function read under the name `logout`, a 401 is answered by a TypeError: no sign-out and no navigation |
| SecureApi.OnError | src/Hooks/Api/UseAxiosSecureApi.jsx:30-40 | Corrected handler. Every error is rejected with itself; exactly 401 starts sign-out; the navigation per status is as the source intends |
| SecureApi.ExpiredSessionNotSignedOut | src/Hooks/Api/UseAxiosSecureApi.jsx:33-38 | On a 401 with working sign-out, the written handler throws while the corrected one signs out and reaches "/login" |
| SecureApi.AsWrittenAgreesBesides401 | src/Hooks/Api/UseAxiosSecureApi.jsx:30-40 | Apart from 401, the written and the corrected handler agree |
| SecureApi.Intercept | src/Hooks/Api/UseAxiosSecureApi.jsx:23-42 | Successes pass through unchanged; every error is rejected again with the same error |
| PrivateRoute.GuardWith | src/SecureRout/PrivateRouts.jsx:9-18 | Spinner while loading whatever the user; a redirect to "/login" carrying the path without a user; the page with one |
| PrivateRoute.GuardAsWritten | src/SecureRout/PrivateRouts.jsx:13-17 | The redirect state has no "from" key |
| PrivateRoute.Guard | src/SecureRout/PrivateRouts.jsx:13-17 | Corrected guard: the redirect state's "from" is the requested path |
| PrivateRoute.RedirectLosesPath | src/SecureRout/PrivateRouts.jsx:15 | As written, signing in after a redirect always targets "/" |
| PrivateRoute.RedirectReturnsToPath | src/SecureRout/PrivateRouts.jsx:15 | Corrected, the redirect target is the requested path |
| PrivateRoute.SignInAfterRedirect | src/Pages/Login/Login.jsx:23-43 | Through the sign-in page: the corrected guard returns the user to the path, the written one to "/" |
| Theme.InitialTheme | src/Component/Sheard/ThemeProvider/ThemeProvider.jsx:6-16 | A non-empty saved theme as saved, else dark exactly when the system prefers dark |
| Theme.Start | src/Component/Sheard/ThemeProvider/ThemeProvider.jsx:6-16 | A visit keeps the saved value; a non-empty saved value is the theme, otherwise the theme is dark exactly under the dark system preference and light otherwise |
| Theme.Toggle | src/Component/Sheard/ThemeProvider/ThemeProvider.jsx:18-22 | The result is light or dark, dark exactly from light, and it is the saved value |
| Theme.ToggleTwice | src/Component/Sheard/ThemeProvider/ThemeProvider.jsx:19 | Between light and dark, two toggles return to the start |
| Theme.ToggleNormalises | src/Component/Sheard/ThemeProvider/ThemeProvider.jsx:19 | Any other theme becomes light, then dark |
| Theme.ToggleSurvivesReload | src/Component/Sheard/ThemeProvider/ThemeProvider.jsx:6-21 | A toggled theme is what the next visit starts with, whatever the system prefers |
| Theme.ApplyTheme | src/Component/Sheard/ThemeProvider/ThemeProvider.jsx:24-31 | The document has the `dark` class exactly under the dark theme, and its other classes stay |
| Theme.ClassFollowsSavedTheme | src/Component/Sheard/ThemeProvider/ThemeProvider.jsx:18-31 | After a toggle, the `dark` class agrees with the saved value |
| Banner.SlideIdsInOrder | src/Pages/Home/Banner/Banner.jsx:5-27 | Three slides numbered 1 to 3 in order |
| Banner.Prev | src/Pages/Home/Banner/Banner.jsx:59 | The left arrow goes from slide 1 to the last slide, otherwise one back, staying in range |
| Banner.Next | src/Pages/Home/Banner/Banner.jsx:62 | The right arrow goes from the last slide to slide 1, otherwise one on, staying in range |
| Banner.PrevNextInverse | src/Pages/Home/Banner/Banner.jsx:59-62 | The arrows undo each other on every slide |
| Banner.NextTimesAdvances | src/Pages/Home/Banner/Banner.jsx:62 | `k` right clicks move `k` slides on, modulo the slide count |
| Banner.FullCycle | src/Pages/Home/Banner/Banner.jsx:62 | One right click per slide returns to the start |
| Banner.ArrowsLinkToSlides | src/Pages/Home/Banner/Banner.jsx:33-62 | Every arrow links to an existing slide |
| ProjectsCarousel.Advance | src/Pages/Aboutme/Projects.jsx:26-28 | The timer goes from the last picture to the first, otherwise one on, staying in range |
| ProjectsCarousel.AdvanceTimesWraps | src/Pages/Aboutme/Projects.jsx:24-32 | `k` ticks move `k` pictures on, modulo the count |
| ProjectsCarousel.FullCycle | src/Pages/Aboutme/Projects.jsx:24-32 | One tick per picture returns to the first picture shown |
| ProjectsCarousel.Step | src/Pages/Aboutme/Projects.jsx:26-51 | A dot click selects that dot's picture; a tick advances; the index stays in range |
| ProjectsCarousel.RunStaysInRange | src/Pages/Aboutme/Projects.jsx:22-51 | From the first picture, any ticks and dot clicks keep the index on a picture |
| ProjectsCarousel.Opacity | src/Pages/Aboutme/Projects.jsx:43 | A picture is opaque exactly when it is the current one, otherwise transparent |
| ProjectsCarousel.ExactlyOneOpaque | src/Pages/Aboutme/Projects.jsx:38-44 | The set of opaque pictures is exactly the current one |
| PackageCard.DiscountIffHigherOldPrice | src/Pages/Home/TourismAndTravel/PackageCard.jsx:20 | For a non-negative price, a discount is exactly an old price above the price |
| PackageCard.PriceArea | src/Pages/Home/TourismAndTravel/PackageCard.jsx:39-59 | SALE, "$" and the struck old price appear exactly with a discount, and the struck price is higher; otherwise "Tk:" and the price alone |
| PackageCard.DurationOf | src/Pages/Home/TourismAndTravel/PackageCard.jsx:67 | Nights are one fewer than days, and non-negative from one day |
| PackageCard.RatingOf | src/Pages/Home/TourismAndTravel/PackageCard.jsx:17 | Only a missing rating defaults to 5 |
| PackageCard.Stars | src/Pages/Home/TourismAndTravel/PackageCard.jsx:78-80 | Always five filled stars |
| PackageCard.StarsIgnoreRating | src/Pages/Home/TourismAndTravel/PackageCard.jsx:17-80 | The rating never changes the stars shown |
| PackageCard.DetailsPath | src/Pages/Home/TourismAndTravel/PackageCard.jsx:87 | The link is "/packages/" followed by the package id |
| PackageCard.DetailsPathInjective | src/Pages/Home/TourismAndTravel/PackageCard.jsx:87 | Different packages link to different pages |
| JoinAsTourGuide.ApplicationFrom | src/Pages/DashBoard/JoinAsTourGuide/JoinAsTourGuide.jsx:34-46 | Nothing without a user. Otherwise the application carries the user's email, the display name or else the email, the three fields unchanged, status "pending" and the submit time |
| JoinAsTourGuide.ApplicantNamed | src/Pages/DashBoard/JoinAsTourGuide/JoinAsTourGuide.jsx:38 | A user with an email never applies nameless |
| JoinAsTourGuide.CanSubmit | src/Pages/DashBoard/JoinAsTourGuide/JoinAsTourGuide.jsx:34-46 | The browser lets the form submit exactly with the three fields filled, a link it accepts as a URL and no request pending |
| JoinAsTourGuide.Submit | src/Pages/DashBoard/JoinAsTourGuide/JoinAsTourGuide.jsx:34-46 | An application is sent exactly when the browser lets the form submit and a user is signed in; the request is then pending |
| JoinAsTourGuide.Settle | src/Pages/DashBoard/JoinAsTourGuide/JoinAsTourGuide.jsx:25-52 | Success clears the three fields and opens the modal; failure keeps the fields; neither leaves the request pending |
| JoinAsTourGuide.CloseModal | src/Pages/DashBoard/JoinAsTourGuide/JoinAsTourGuide.jsx:205 | Close hides the modal and changes nothing else |
| JoinAsTourGuide.ResubmitNeedsNewInput | src/Pages/DashBoard/JoinAsTourGuide/JoinAsTourGuide.jsx:25-52 | After success, the cleared form cannot be sent again. After failure, the same form sends the same application |
| JoinAsTourGuide.NoDoubleSubmit | src/Pages/DashBoard/JoinAsTourGuide/JoinAsTourGuide.jsx:34-46 | While a request is pending, a second click sends nothing |
| JsText.Trim | src/Pages/DashBoard/Story/AddStory.jsx:106-107 | The result occurs in the input, neither starts nor ends with whitespace, and everything cut off on either side is whitespace |
| JsText.TrimEmptyIffAllSpace | src/Pages/CommunityPage/CommunityStroies.jsx:90 | A text trims to nothing exactly when it is all whitespace |
| JsText.TrimIdempotent | src/Pages/DashBoard/Story/AddStory.jsx:106-107 | Trimming twice is trimming once |
| JsText.CodeUnits | src/Pages/Registation/Registation.jsx:145-148 | A character counts two code units exactly when it lies beyond the Basic Multilingual Plane, one otherwise |
| JsText.Length | src/Pages/Registation/Registation.jsx:145-148 | `.length` lies between the number of characters and twice that |
| JsText.LengthAppend | src/Pages/Registation/Registation.jsx:145-148 | `.length` adds up over concatenation |
| JsText.LengthOfBmp | src/Pages/Registation/Registation.jsx:145-148 | Without characters beyond the Basic Multilingual Plane, `.length` is the character count |
| JsText.SurrogatePairsCountTwice | src/Pages/Registation/Registation.jsx:145-148 | Two emoji and a letter are three characters but five code units |
| JsText.ToLower | src/Component/alltourGuidess/AllTourGuides.jsx:23 | The length is kept, and each character is lower-cased on its own |
| JsText.IncludesIffOccurs | src/Component/alltourGuidess/AllTourGuides.jsx:23 | `includes` holds exactly when the needle occurs at some position |
| JsText.ParseInt | src/Pages/Home/TourismAndTravel/BookingForm.jsx:113 | A number exactly when a digit follows the leading whitespace and sign; its sign follows the sign character, and its magnitude is the value of the longest digit run there |
| JsText.DigitRunStopsAtNonDigit | src/Pages/Home/TourismAndTravel/BookingForm.jsx:113 | The digit run read is exactly the digits before the first non-digit |
| JsText.ParseIntReadsLeadingNumber | src/Pages/Home/TourismAndTravel/BookingForm.jsx:113 | A number followed by text that does not start with a digit reads as that number; the rest is ignored |
| JsText.ParseIntOfDecimal | src/Pages/Home/TourismAndTravel/BookingForm.jsx:113-128 | `parseInt` reads back the decimal text of any natural number |
| JsText.ParseIntOfNegativeDecimal | src/Pages/Home/TourismAndTravel/BookingForm.jsx:113-128 | The same with a minus sign in front |
| Numeric.CeilDiv | src/Pages/DashBoard/ManageUserAdmin/ManageUsersByAdmin.jsx:62 | `Math.ceil(a / b)` is the least count of `b`-sized pages holding `a` items |
| Numeric.JsRemNegativeDividend | src/Pages/CommunityPage/CommunityStroies.jsx:103 | JavaScript's remainder differs from Euclidean `%` on a negative dividend, which is why the gallery adds the count before `%` |

## Findings

| source | as written | input that shows it | evidently intended | confidence | as-written member | corrected member |
|---|---|---|---|---|---|---|
| src/SecureRout/PrivateRouts.jsx:15 | The redirect to sign-in stores the requested path under the state key "form", while Login.jsx:23 and Registation.jsx:18 read "from" | A visitor opens any protected page while signed out, then signs in; they land on "/" | The path goes under "from", and signing in returns the visitor to it | high (not executed) | PrivateRoute.GuardAsWritten, PrivateRoute.RedirectLosesPath | PrivateRoute.Guard, PrivateRoute.RedirectReturnsToPath, PrivateRoute.SignInAfterRedirect |
| src/Hooks/Api/UseAxiosSecureApi.jsx:12 | The hook takes `logout` from the auth context, which publishes `logOut` (src/Firebase/AuthProvider.jsx:25,61). The 401 branch calls `undefined` and throws | Any request answered with status 401 | Sign out, then navigate to "/login" once sign-out succeeds; the caller sees the 401 | high (not executed) | SecureApi.OnErrorAsWritten, SecureApi.ExpiredSessionNotSignedOut | SecureApi.OnError, SecureApi.AsWrittenAgreesBesides401 |

The rest of the model uses the corrected members.

## Left out

- Network, caching and the query library: fetching, invalidation, refetching, retries and toasts. A request's success or failure is a boolean parameter. Server responses are datatypes.
- The success and failure alerts of the story post, the package post and the tour accept/reject requests. These are query-library callbacks, and the model stops at the request sent.
- Payment (PaymentForm), dashboards, static pages and the navigation bar, which hold no decision logic.
- Dates and clocks: "now" is an opaque string parameter. Locale date formatting is not modelled.
- `toFixed(2)` rounding in the booking summary: amounts are exact rationals.
- BookingForm.Summary: states exact prices, not the two-decimal strings shown.
- JsText.ToLower: lower-cases ASCII letters only, not the full Unicode case mapping of `toLowerCase()`.
- JsText.ParseInt: reads decimal digits only. `parseInt` without a radix would also read a "0x" prefix, which a number input never produces.
- The browser's own `type="email"` and `type="url"` checks. The URL check is a boolean parameter of JoinAsTourGuide.CanSubmit; the email check is not modelled.
- Interceptor registration: the hook adds two new interceptors on every render. Only one pass through each is modelled.
- SecureApi.Authorize: reading the token without a signed-in user rejects the request. A user without a token would send "Bearer undefined"; this is not modelled.
- Registration.Submit: the account creation call's error is caught and only logged, so the record is posted whatever it returns. The model therefore has no parameter for it, and the ordering of the awaits is not modelled.
- Registration: the commented-out second password field, with its required and six-character rules, is not modelled; it has no effect on the page.
- AddPackage: the commented-out gallery list is not modelled. The `gallery` default of one empty string is posted with the form and is not part of PackageForm.
- AllTourGuides.Stars: compares the index with the numeric rating. Non-numeric rating values are not modelled.
- AddPackage: number fields are whole numbers. An input of type "number" without `step` makes the browser refuse a fraction before the submit handler runs. The form posts the inputs' text; the model posts the numbers.
- AddStory.Submit: `posting` is only the story post's pending flag. The Publish button stays enabled while the images upload, so a second click then starts a second round of uploads; overlapping submissions are not modelled.
- CommunityStories.PostDisabled: `posting` is a parameter, because the comment mutation's `isLoading` depends on the query library's version, and a version without that field never disables the button.
- ManageUsers.RefetchingKeepsPageInRange: assumes the user count changes only with the refetch after a filter edit. A count that shrinks while paging, for example through deletions elsewhere, can leave the page past the last one; the source does not guard against that either.
- Character encoding beyond UTF-16 length: strings are sequences of Unicode scalar values, and only `.length` counts code units (JsText.Length). Indexing and slicing by code unit are not modelled; the modelled code only slices at positions of ASCII characters.
- Liking a story: the like request and its toggling are decided by the server; only the liked-state display (CommunityStories.CheckIfLiked) is modelled.

=== FILE: add_package.dfy ===
/** The admin "Add New Package" form: the tour-plan list with its
    "+ Add Day" and Remove buttons, the field rules, and the reset after a
    successful save. */
module AddPackage {

  import opened Optional

  /** One day of the tour plan. Number inputs are `None` while empty; they
      hold whole numbers, because an input of type "number" without a
      `step` attribute makes the browser refuse a fraction before the
      submit handler runs. */
  datatype PlanEntry = PlanEntry(day: Option<int>, headline: string, details: string)

  /** The form's fields. */
  datatype PackageForm = PackageForm(
    title: string,
    tourType: string,
    price: Option<int>,
    days: Option<int>,
    about: string,
    thumbnail: string,
    tourPlan: seq<PlanEntry>)

  const FirstDay := PlanEntry(Some(1), "", "")

  /** The form's defaults, which a reset restores: one plan entry for day 1. */
  const DefaultForm := PackageForm("", "", None, None, "", "", [FirstDay])

  /** "+ Add Day": appends an empty entry numbered one past the count. */
  function AddDay(plan: seq<PlanEntry>): (r: seq<PlanEntry>)
    ensures |r| == |plan| + 1 && r[..|plan|] == plan
    ensures r[|plan|] == PlanEntry(Some(|plan| + 1), "", "")
  {
    plan + [PlanEntry(Some(|plan| + 1), "", "")]
  }

  /** An entry's Remove button, shown only while there is more than one
      entry: drops that entry and keeps the others in order. */
  function RemoveDay(plan: seq<PlanEntry>, i: int): (r: seq<PlanEntry>)
    ensures |plan| > 1 && 0 <= i < |plan| ==>
      |r| == |plan| - 1
      && (forall k :: 0 <= k < i ==> r[k] == plan[k])
      && (forall k :: i <= k < |r| ==> r[k] == plan[k + 1])
    ensures !(|plan| > 1 && 0 <= i < |plan|) ==> r == plan
    ensures |plan| >= 1 ==> |r| >= 1
  {
    if |plan| > 1 && 0 <= i < |plan| then plan[..i] + plan[i + 1..] else plan
  }

  datatype PlanAction = AddDayClick | RemoveClick(index: int)

  function ApplyPlanActions(plan: seq<PlanEntry>, actions: seq<PlanAction>): seq<PlanEntry>
    decreases |actions|
  {
    if actions == [] then plan
    else
      var next := match actions[0]
        case AddDayClick => AddDay(plan)
        case RemoveClick(i) => RemoveDay(plan, i);
      ApplyPlanActions(next, actions[1..])
  }

  /** No sequence of clicks leaves the plan without a day. */
  lemma {:induction false} PlanNeverEmpty(plan: seq<PlanEntry>, actions: seq<PlanAction>)
    requires |plan| >= 1
    ensures |ApplyPlanActions(plan, actions)| >= 1
    decreases |actions|
  {
    if actions != [] {
      var next := match actions[0]
        case AddDayClick => AddDay(plan)
        case RemoveClick(i) => RemoveDay(plan, i);
      PlanNeverEmpty(next, actions[1..]);
    }
  }

  /** Entry `k` is numbered `k + 1`. */
  predicate NumberedInOrder(plan: seq<PlanEntry>) {
    forall k :: 0 <= k < |plan| ==> plan[k].day == Some(k + 1)
  }

  /** Adding days to a plan numbered 1, 2, ... keeps it numbered so. */
  lemma AddDayKeepsNumbering(plan: seq<PlanEntry>)
    requires NumberedInOrder(plan)
    ensures NumberedInOrder(AddDay(plan))
  {
  }

  /** Removing a day and adding one can repeat a day number: the new day's
      number counts the entries, not the largest day. */
  lemma RemoveThenAddRepeatsDay()
    ensures var plan := AddDay(AddDay([FirstDay]));
      var r := AddDay(RemoveDay(plan, 0));
      |r| == 3 && r[1].day == r[2].day == Some(3)
  {
  }

  /** `required: true` on a text field. */
  predicate Filled(s: string) {
    s != ""
  }

  /** `required: true, min: m` on a number field. */
  predicate AtLeast(x: Option<int>, m: int) {
    x.Some? && x.value >= m
  }

  predicate EntryValid(e: PlanEntry) {
    AtLeast(e.day, 1) && Filled(e.headline) && Filled(e.details)
  }

  /** The fields that carry rules, as the form library names them. */
  datatype Field = Title | TourType | Price | Days | About | Thumbnail | TourPlan

  /** `{field}` when its rule fails, else nothing. */
  function FailsIf(passes: bool, field: Field): (r: set<Field>)
    ensures field in r <==> !passes
    ensures forall g :: g in r ==> g == field
  {
    if passes then {} else {field}
  }

  /** The fields that fail their rules, by name. */
  function InvalidFields(f: PackageForm): (r: set<Field>)
    ensures Title in r <==> f.title == ""
    ensures TourType in r <==> f.tourType == ""
    ensures Price in r <==> !(f.price.Some? && f.price.value >= 0)
    ensures Days in r <==> !(f.days.Some? && f.days.value >= 1)
    ensures About in r <==> f.about == ""
    ensures Thumbnail in r <==> f.thumbnail == ""
    ensures TourPlan in r <==> exists k :: 0 <= k < |f.tourPlan| && !EntryValid(f.tourPlan[k])
  {
    FailsIf(Filled(f.title), Title)
    + FailsIf(Filled(f.tourType), TourType)
    + FailsIf(AtLeast(f.price, 0), Price)
    + FailsIf(AtLeast(f.days, 1), Days)
    + FailsIf(Filled(f.about), About)
    + FailsIf(Filled(f.thumbnail), Thumbnail)
    + FailsIf(forall k :: 0 <= k < |f.tourPlan| ==> EntryValid(f.tourPlan[k]), TourPlan)
  }

  /** The form as the page shows it after a save, and what was posted. */
  datatype Outcome = Outcome(form: PackageForm, posted: Option<PackageForm>)

  /** Saving posts the form exactly when every rule passes; a successful
      save resets the form to its defaults, a failed one keeps it. */
  function Save(f: PackageForm, serverOk: bool): (o: Outcome)
    ensures o.posted.Some? <==> InvalidFields(f) == {}
    ensures o.posted.Some? ==> o.posted.value == f
    ensures o.posted.Some? && serverOk ==> o.form == DefaultForm
    ensures !(o.posted.Some? && serverOk) ==> o.form == f
  {
    if InvalidFields(f) != {} then Outcome(f, None)
    else if serverOk then Outcome(DefaultForm, Some(f))
    else Outcome(f, Some(f))
  }

  /** The defaults themselves do not pass: a fresh form cannot be saved. */
  lemma DefaultFormIsNotSaved(serverOk: bool)
    ensures Save(DefaultForm, serverOk).posted.None?
  {
    assert Title in InvalidFields(DefaultForm);
  }

  /** A form whose text fields are filled, whose price is at least 0, whose
      day count is at least 1 and whose every plan day is numbered from 1
      with a headline and details is posted as it stands. */
  lemma CompleteFormIsSaved(f: PackageForm, serverOk: bool)
    requires f.title != "" && f.tourType != "" && f.about != "" && f.thumbnail != ""
    requires f.price.Some? && f.price.value >= 0 && f.days.Some? && f.days.value >= 1
    requires forall k :: 0 <= k < |f.tourPlan| ==> EntryValid(f.tourPlan[k])
    ensures Save(f, serverOk).posted == Some(f)
  {
  }

  /** A failing field blocks the post, whichever it is. */
  lemma FailingFieldBlocksSave(f: PackageForm, name: Field, serverOk: bool)
    requires name == Title ==> f.title == ""
    requires name == TourType ==> f.tourType == ""
    requires name == Price ==> f.price.None? || f.price.value < 0
    requires name == Days ==> f.days.None? || f.days.value < 1
    requires name == About ==> f.about == ""
    requires name == Thumbnail ==> f.thumbnail == ""
    requires name == TourPlan ==> exists k :: 0 <= k < |f.tourPlan| && !EntryValid(f.tourPlan[k])
    ensures Save(f, serverOk) == Outcome(f, None)
  {
    assert name in InvalidFields(f);
  }

  /** A day just added has no headline yet, so the form cannot be saved
      until it is filled in, however complete the rest is. */
  lemma {:induction false} NewDayBlocksSave(f: PackageForm, serverOk: bool)
    ensures var g := f.(tourPlan := AddDay(f.tourPlan));
      Save(g, serverOk) == Outcome(g, None)
  {
    var g := f.(tourPlan := AddDay(f.tourPlan));
    assert !EntryValid(g.tourPlan[|f.tourPlan|]);
    FailingFieldBlocksSave(g, TourPlan, serverOk);
  }
}

=== FILE: add_story.dfy ===
/** The "Create New Story" form: its one-to-five image slots, the field
    rules, the image uploads one slot at a time, and the story it posts. */
module AddStory {

  import opened Optional
  import opened JsText

  const MaxSlots: nat := 5
  const TitleMinLength: nat := 5
  const DescriptionMinLength: nat := 50

  /** An image slot holds the file chosen in it, if any. */
  type Slot = Option<string>

  /** The slot counts the form can show. */
  predicate SlotsInBounds(slots: seq<Slot>) {
    1 <= |slots| <= MaxSlots
  }

  /** The form starts with exactly one empty slot. */
  const InitialSlots: seq<Slot> := [None]

  /** "+ Add Another Image": appends an empty slot, disabled at five. */
  function AddSlot(slots: seq<Slot>): (r: seq<Slot>)
    ensures |slots| < MaxSlots ==> r == slots + [None]
    ensures |slots| >= MaxSlots ==> r == slots
    ensures SlotsInBounds(slots) ==> SlotsInBounds(r)
  {
    if |slots| < MaxSlots then slots + [None] else slots
  }

  /** The remove button of slot `i`, shown only while there is more than
      one slot: drops that slot and keeps the others in order. */
  function RemoveSlot(slots: seq<Slot>, i: int): (r: seq<Slot>)
    ensures |slots| > 1 && 0 <= i < |slots| ==>
      |r| == |slots| - 1
      && (forall k :: 0 <= k < i ==> r[k] == slots[k])
      && (forall k :: i <= k < |r| ==> r[k] == slots[k + 1])
    ensures !(|slots| > 1 && 0 <= i < |slots|) ==> r == slots
    ensures SlotsInBounds(slots) ==> SlotsInBounds(r)
  {
    if |slots| > 1 && 0 <= i < |slots| then slots[..i] + slots[i + 1..] else slots
  }

  /** Choosing (or clearing) the file of slot `i`. */
  function ChooseFile(slots: seq<Slot>, i: int, file: Slot): (r: seq<Slot>)
    ensures |r| == |slots|
    ensures 0 <= i < |slots| ==> r[i] == file
    ensures forall k :: 0 <= k < |slots| && k != i ==> r[k] == slots[k]
  {
    if 0 <= i < |slots| then slots[i := file] else slots
  }

  datatype SlotAction = Add | Remove(index: int) | Choose(index: int, file: Slot)

  function ApplySlotAction(slots: seq<Slot>, a: SlotAction): seq<Slot> {
    match a
    case Add => AddSlot(slots)
    case Remove(i) => RemoveSlot(slots, i)
    case Choose(i, f) => ChooseFile(slots, i, f)
  }

  function ApplySlotActions(slots: seq<Slot>, actions: seq<SlotAction>): seq<Slot>
    decreases |actions|
  {
    if actions == [] then slots else ApplySlotActions(ApplySlotAction(slots, actions[0]), actions[1..])
  }

  /** However the user adds, removes and fills slots, there are always
      between one and five. */
  lemma {:induction false} SlotsStayInBounds(slots: seq<Slot>, actions: seq<SlotAction>)
    requires SlotsInBounds(slots)
    ensures SlotsInBounds(ApplySlotActions(slots, actions))
    decreases |actions|
  {
    if actions != [] {
      var next := ApplySlotAction(slots, actions[0]);
      assert SlotsInBounds(next);
      SlotsStayInBounds(next, actions[1..]);
    }
  }

  /** The form's fields. */
  datatype Form = Form(title: string, description: string, slots: seq<Slot>)

  /** The title rule, on the text as typed: required, then at least five
      characters. */
  function TitleError(title: string): (e: Option<string>)
    ensures e.None? <==> Length(title) >= TitleMinLength
    ensures title == "" ==> e == Some("Title is required")
    ensures title != "" && Length(title) < TitleMinLength ==> e == Some("Title should be at least 5 characters")
  {
    if title == "" then Some("Title is required")
    else if Length(title) < TitleMinLength then Some("Title should be at least 5 characters")
    else None
  }

  /** The story rule, on the text as typed: required, then at least fifty
      characters. */
  function DescriptionError(description: string): (e: Option<string>)
    ensures e.None? <==> Length(description) >= DescriptionMinLength
    ensures description == "" ==> e == Some("Story content is required")
    ensures description != "" && Length(description) < DescriptionMinLength ==> e == Some("Story should be at least 50 characters")
  {
    if description == "" then Some("Story content is required")
    else if Length(description) < DescriptionMinLength then Some("Story should be at least 50 characters")
    else None
  }

  /** The first slot's file is required; the others are not. */
  function FirstSlotError(slots: seq<Slot>): (e: Option<string>)
    ensures e.None? <==> |slots| > 0 && slots[0].Some?
    ensures e.Some? ==> e.value == "At least one image is required"
  {
    if |slots| > 0 && slots[0].Some? then None else Some("At least one image is required")
  }

  /** The form passes its field rules, so the submit handler runs. */
  predicate FieldsValid(f: Form) {
    TitleError(f.title).None? && DescriptionError(f.description).None? && FirstSlotError(f.slots).None?
  }

  /** The lengths are checked before trimming: a title of five spaces
      passes and is posted empty. */
  lemma LengthsCheckedBeforeTrim()
    ensures TitleError("     ").None? && Trim("     ") == ""
  {
    TrimEmptyIffAllSpace("     ");
  }

  /** Every slot has a file. */
  predicate AllSlotsFilled(slots: seq<Slot>) {
    forall k :: 0 <= k < |slots| ==> slots[k].Some?
  }

  /** How the `k`-th upload ended: the host's URL, an answer without
      success, or a thrown error (a rejected request or a body that is not
      JSON) carrying its message. */
  datatype HostAnswer = Hosted(url: string) | Unsuccessful | Thrown(message: string)

  /** The `k`-th upload's answer; one missing from `answers` counts as
      unsuccessful. */
  function Answer(answers: seq<HostAnswer>, k: int): HostAnswer {
    if 0 <= k < |answers| then answers[k] else Unsuccessful
  }

  /** The alert text for a failed upload: an unsuccessful answer throws
      "Image upload failed"; a thrown error shows its own message, or the
      generic one when that is empty. */
  function FailureText(a: HostAnswer): (t: string)
    requires !a.Hosted?
    ensures t != ""
    ensures a.Unsuccessful? ==> t == "Image upload failed"
    ensures a.Thrown? && a.message != "" ==> t == a.message
    ensures a.Thrown? && a.message == "" ==> t == "Failed to publish story"
  {
    match a
    case Unsuccessful => "Image upload failed"
    case Thrown(m) => if m != "" then m else "Failed to publish story"
  }

  /** Every filled slot among the first `n` gets a URL. */
  predicate UploadsSucceed(slots: seq<Slot>, answers: seq<HostAnswer>, n: int) {
    forall k :: 0 <= k < n && k < |slots| && slots[k].Some? ==> Answer(answers, k).Hosted?
  }

  /** Slot `k` is the first filled slot whose upload fails. */
  predicate FirstFailureAt(slots: seq<Slot>, answers: seq<HostAnswer>, k: int) {
    && 0 <= k < |slots|
    && slots[k].Some?
    && !Answer(answers, k).Hosted?
    && UploadsSucceed(slots, answers, k)
  }

  /** There is only one first failure. */
  lemma FirstFailureUnique(slots: seq<Slot>, answers: seq<HostAnswer>, j: int, k: int)
    requires FirstFailureAt(slots, answers, j) && FirstFailureAt(slots, answers, k)
    ensures j == k
  {
  }

  /** The URLs of the filled slots among the first `n`, in slot order. */
  function UrlsInSlotOrder(slots: seq<Slot>, answers: seq<HostAnswer>, n: nat): seq<string>
    requires n <= |slots|
    requires UploadsSucceed(slots, answers, n)
  {
    if n == 0 then []
    else
      UrlsInSlotOrder(slots, answers, n - 1)
        + (if slots[n - 1].Some? then [Answer(answers, n - 1).url] else [])
  }

  /** With every slot filled, the URLs are exactly the answers, slot by slot. */
  lemma {:induction false} FilledSlotsGiveAllUrls(slots: seq<Slot>, answers: seq<HostAnswer>, n: nat)
    requires n <= |slots| && AllSlotsFilled(slots) && UploadsSucceed(slots, answers, n)
    ensures |UrlsInSlotOrder(slots, answers, n)| == n
    ensures forall k :: 0 <= k < n ==> Answer(answers, k) == Hosted(UrlsInSlotOrder(slots, answers, n)[k])
  {
    if n > 0 {
      FilledSlotsGiveAllUrls(slots, answers, n - 1);
    }
  }

  datatype Uploads = Uploaded(urls: seq<string>) | UploadFailed(message: string)

  /** The upload loop: the slots are uploaded one after the other, an
      empty slot is skipped, and the first failing upload stops the loop
      with its alert text. */
  method UploadAll(slots: seq<Slot>, answers: seq<HostAnswer>) returns (r: Uploads)
    ensures r.Uploaded? <==> UploadsSucceed(slots, answers, |slots|)
    ensures r.Uploaded? ==> r.urls == UrlsInSlotOrder(slots, answers, |slots|)
    ensures r.UploadFailed? ==>
      exists k :: FirstFailureAt(slots, answers, k) && r.message == FailureText(Answer(answers, k))
    ensures r.Uploaded? && AllSlotsFilled(slots) ==>
      |r.urls| == |slots| && forall k :: 0 <= k < |slots| ==> Answer(answers, k) == Hosted(r.urls[k])
  {
    var urls: seq<string> := [];
    var i := 0;
    while i < |slots|
      invariant 0 <= i <= |slots|
      invariant UploadsSucceed(slots, answers, i)
      invariant urls == UrlsInSlotOrder(slots, answers, i)
    {
      if slots[i].Some? {
        var answer := Answer(answers, i);
        if !answer.Hosted? {
          assert FirstFailureAt(slots, answers, i);
          return UploadFailed(FailureText(answer));
        }
        urls := urls + [answer.url];
      }
      i := i + 1;
    }
    if AllSlotsFilled(slots) {
      FilledSlotsGiveAllUrls(slots, answers, |slots|);
    }
    return Uploaded(urls);
  }

  /** The story posted to `/stories`. */
  datatype StoryData = StoryData(title: string, description: string, images: seq<string>, createdAt: string)

  /** The story carries the trimmed title and text, the submit time, and
      one URL per slot, in slot order. */
  predicate PublishedFrom(story: StoryData, f: Form, answers: seq<HostAnswer>, now: string) {
    && story.title == Trim(f.title)
    && story.description == Trim(f.description)
    && story.createdAt == now
    && |story.images| == |f.slots|
    && forall k :: 0 <= k < |f.slots| ==> Answer(answers, k) == Hosted(story.images[k])
  }

  /** What submitting did: whether the uploads started, the story posted,
      if any, and the alert shown. */
  datatype Outcome = Outcome(uploadsStarted: bool, posted: Option<StoryData>, alert: Option<string>)

  const NothingHappens := Outcome(false, None, None)

  /** Submitting the form. While the story post is pending the Publish
      button is disabled, which blocks both the click and Enter, so nothing
      runs. Otherwise nothing runs unless the fields pass their rules; an
      empty slot anywhere is refused with an alert before any upload; the
      first failed upload is reported and nothing is posted; otherwise the
      story is posted with the trimmed title and text and one URL per slot,
      in slot order. `posting` is the post mutation's pending flag; it is
      not set while the images upload. */
  method Submit(f: Form, posting: bool, answers: seq<HostAnswer>, now: string) returns (o: Outcome)
    ensures posting ==> o == NothingHappens
    ensures !FieldsValid(f) ==> o == NothingHappens
    ensures !posting && FieldsValid(f) && !AllSlotsFilled(f.slots) ==>
      o == Outcome(false, None, Some("Please upload at least one image"))
    ensures o.uploadsStarted <==> !posting && FieldsValid(f) && AllSlotsFilled(f.slots)
    ensures o.posted.Some? <==>
      !posting && FieldsValid(f) && AllSlotsFilled(f.slots) && UploadsSucceed(f.slots, answers, |f.slots|)
    ensures o.posted.Some? ==> PublishedFrom(o.posted.value, f, answers, now) && o.alert.None?
    ensures o.uploadsStarted && o.posted.None? ==>
      exists k :: FirstFailureAt(f.slots, answers, k) && o.alert == Some(FailureText(Answer(answers, k)))
  {
    if posting || !FieldsValid(f) {
      return NothingHappens;
    }
    if !AllSlotsFilled(f.slots) {
      return Outcome(false, None, Some("Please upload at least one image"));
    }
    var uploads := UploadAll(f.slots, answers);
    if uploads.UploadFailed? {
      return Outcome(true, None, Some(uploads.message));
    }
    // The "No images were uploaded successfully" error cannot arise here:
    // the first slot is required and every slot has a file.
    assert |uploads.urls| == |f.slots| > 0;
    var story := StoryData(Trim(f.title), Trim(f.description), uploads.urls, now);
    assert PublishedFrom(story, f, answers, now);
    return Outcome(true, Some(story), None);
  }

  /** A story that was posted leaves its mutation pending, and a second
      submit of the same form meanwhile neither uploads nor posts anything:
      the story cannot be published twice from one form. */
  method SubmitWhilePublishing(f: Form, answers: seq<HostAnswer>, now: string) returns (first: Outcome, second: Outcome)
    ensures first.posted.Some? <==> FieldsValid(f) && AllSlotsFilled(f.slots) && UploadsSucceed(f.slots, answers, |f.slots|)
    ensures first.posted.Some? ==> second == NothingHappens
    ensures first.posted.None? ==> second == first
  {
    first := Submit(f, false, answers, now);
    second := Submit(f, first.posted.Some?, answers, now);
  }
}

=== FILE: all_tour_guides.dfy ===
/** The public tour-guide directory: the case-insensitive name search, the
    five-star rating rows, the profile modal and the no-results block. */
module AllTourGuides {

  import opened Optional
  import opened JsText

  const StarCount: nat := 5

  /** The guide fields the directory reads; the rating may be missing. */
  datatype Guide = Guide(id: string, name: string, rating: Option<real>)

  /** A guide matches when its lower-cased name contains the lower-cased
      search term. */
  predicate Matches(g: Guide, term: string) {
    Includes(ToLower(g.name), ToLower(term))
  }

  /** `tourGuides.filter(...)`: the matching guides, in their order. */
  function FilterGuides(gs: seq<Guide>, term: string): (r: seq<Guide>)
    ensures |r| <= |gs|
    ensures forall i :: 0 <= i < |r| ==> r[i] in gs && Matches(r[i], term)
    ensures forall i :: 0 <= i < |gs| && Matches(gs[i], term) ==> gs[i] in r
  {
    if gs == [] then []
    else (if Matches(gs[0], term) then [gs[0]] else []) + FilterGuides(gs[1..], term)
  }

  /** Filtering a concatenation filters each part and keeps them in order,
      so the filter never reorders guides. */
  lemma {:induction false} FilterAppend(a: seq<Guide>, b: seq<Guide>, term: string)
    ensures FilterGuides(a + b, term) == FilterGuides(a, term) + FilterGuides(b, term)
    decreases |a|
  {
    if a != [] {
      assert (a + b)[1..] == a[1..] + b;
      FilterAppend(a[1..], b, term);
      var head := if Matches(a[0], term) then [a[0]] else [];
      assert FilterGuides(a + b, term) == head + (FilterGuides(a[1..], term) + FilterGuides(b, term));
    } else {
      assert a + b == b;
    }
  }

  /** A match is a literal occurrence of the lower-cased term somewhere in
      the lower-cased name. */
  lemma MatchesIffOccurs(g: Guide, term: string)
    ensures Matches(g, term) <==> exists i :: OccursAt(ToLower(g.name), ToLower(term), i)
  {
    IncludesIffOccurs(ToLower(g.name), ToLower(term));
  }

  lemma ToLowerIdempotent(s: string)
    ensures ToLower(ToLower(s)) == ToLower(s)
  {
  }

  /** The search ignores the case of the term. */
  lemma SearchIgnoresTermCase(g: Guide, term: string)
    ensures Matches(g, ToLower(term)) <==> Matches(g, term)
  {
    ToLowerIdempotent(term);
  }

  /** An empty search keeps every guide. */
  lemma {:induction false} EmptyTermKeepsAll(gs: seq<Guide>)
    ensures FilterGuides(gs, "") == gs
  {
    if gs != [] {
      IncludesEmpty(ToLower(gs[0].name));
      assert ToLower("") == "";
      EmptyTermKeepsAll(gs[1..]);
    }
  }

  /** `guide.rating || 0`. */
  function RatingOrZero(g: Guide): real {
    NumberOr(g.rating, 0.0)
  }

  /** The star row: always five icons, icon `i` filled exactly when
      `i < rating`, a missing rating counting as 0. */
  function Stars(g: Guide): (r: seq<bool>)
    ensures |r| == StarCount
    ensures forall i :: 0 <= i < |r| ==> (r[i] <==> (i as real) < RatingOrZero(g))
  {
    seq(StarCount, i requires 0 <= i < StarCount => (i as real) < RatingOrZero(g))
  }

  /** The filled stars come first: a filled star is never preceded by an
      empty one. */
  lemma StarsFilledPrefix(g: Guide, i: nat, j: nat)
    requires i <= j < StarCount
    ensures Stars(g)[j] ==> Stars(g)[i]
  {
  }

  /** A guide without a rating shows five empty stars. */
  lemma UnratedShowsNoStar(g: Guide)
    requires g.rating.None?
    ensures forall i :: 0 <= i < StarCount ==> !Stars(g)[i]
  {
  }

  /** The directory's own state. */
  datatype Directory = Directory(searchTerm: string, selected: Option<Guide>, modalOpen: bool)

  const InitialDirectory := Directory("", None, false)

  /** The profile modal is drawn when it is open and a guide is selected. */
  predicate ModalShown(d: Directory) {
    d.modalOpen && d.selected.Some?
  }

  function OpenModal(d: Directory, g: Guide): (r: Directory)
    ensures ModalShown(r) && r.selected == Some(g)
    ensures r.searchTerm == d.searchTerm
  {
    d.(selected := Some(g), modalOpen := true)
  }

  function CloseModal(d: Directory): (r: Directory)
    ensures !ModalShown(r) && r.selected.None? && !r.modalOpen
    ensures r.searchTerm == d.searchTerm
  {
    d.(selected := None, modalOpen := false)
  }

  /** Closing after opening returns to the state before opening, when no
      modal was open then. */
  lemma OpenThenClose(d: Directory, g: Guide)
    requires d.selected.None? && !d.modalOpen
    ensures CloseModal(OpenModal(d, g)) == d
  {
  }

  /** The "No tour guides found" block appears exactly when nothing matches. */
  predicate NoResults(gs: seq<Guide>, d: Directory) {
    |FilterGuides(gs, d.searchTerm)| == 0
  }

  /** "Clear search" empties the term and nothing else. */
  function ClearSearch(d: Directory): (r: Directory)
    ensures r.searchTerm == ""
    ensures r.selected == d.selected && r.modalOpen == d.modalOpen
  {
    d.(searchTerm := "")
  }

  /** After "Clear search" the no-results block remains only when there
      are no guides at all. */
  lemma ClearSearchShowsAll(gs: seq<Guide>, d: Directory)
    ensures FilterGuides(gs, ClearSearch(d).searchTerm) == gs
    ensures NoResults(gs, ClearSearch(d)) <==> gs == []
  {
    EmptyTermKeepsAll(gs);
  }
}

=== FILE: assigned_tours.dfy ===
/** The tour guide's "My Assigned Tours" table: reading the tour list from
    the response, the status badge, and the Accept and Reject buttons.
    This page spells the review status "in-review", with a hyphen. */
module AssignedTours {

  import opened Optional

  datatype Tour = Tour(id: string, status: string)

  /** The `data` field of the response: an array of tours, or anything else. */
  datatype Data = ArrayOf(items: seq<Tour>) | NotAnArray

  /** `Array.isArray(response?.data) ? response.data : []`, with `None`
      for a missing response or a missing `data`. */
  function ToursOf(data: Option<Data>): (tours: seq<Tour>)
    ensures data.Some? && data.value.ArrayOf? ==> tours == data.value.items
    ensures !(data.Some? && data.value.ArrayOf?) ==> tours == []
  {
    if data.Some? && data.value.ArrayOf? then data.value.items else []
  }

  /** "No tours assigned to you yet." replaces the table exactly when the
      list is empty. */
  predicate ShowEmptyMessage(data: Option<Data>) {
    |ToursOf(data)| == 0
  }

  /** Anything but an array shows the empty message. */
  lemma NonArrayShowsEmpty(data: Option<Data>)
    requires !(data.Some? && data.value.ArrayOf?)
    ensures ShowEmptyMessage(data)
  {
  }

  /** The badge colour: pending, in-review and accepted have their own,
      every other status shows as an error. */
  function BadgeClass(status: string): (c: string)
    ensures status == "pending" ==> c == "badge-warning"
    ensures status == "in-review" ==> c == "badge-info"
    ensures status == "accepted" ==> c == "badge-success"
    ensures status != "pending" && status != "in-review" && status != "accepted" ==> c == "badge-error"
  {
    if status == "pending" then "badge-warning"
    else if status == "in-review" then "badge-info"
    else if status == "accepted" then "badge-success"
    else "badge-error"
  }

  /** Accept and Reject are both enabled only on tours in review. */
  predicate ActionsEnabled(t: Tour) {
    t.status == "in-review"
  }

  /** The buttons are live exactly on the rows with the info badge. */
  lemma EnabledIffInfoBadge(t: Tour)
    ensures ActionsEnabled(t) <==> BadgeClass(t.status) == "badge-info"
  {
  }

  datatype Request = AcceptRequest(tourId: string) | RejectRequest(tourId: string)

  /** Clicking Accept sends the accept request for the row's tour; a
      disabled button sends nothing. */
  function ClickAccept(t: Tour): (r: Option<Request>)
    ensures r.Some? <==> ActionsEnabled(t)
    ensures r.Some? ==> r.value == AcceptRequest(t.id)
  {
    if ActionsEnabled(t) then Some(AcceptRequest(t.id)) else None
  }

  /** Clicking Reject asks for confirmation first, and sends the reject
      request only when the button is enabled and the user confirms. */
  function ClickReject(t: Tour, confirmed: bool): (r: Option<Request>)
    ensures r.Some? <==> ActionsEnabled(t) && confirmed
    ensures r.Some? ==> r.value == RejectRequest(t.id)
  {
    if ActionsEnabled(t) && confirmed then Some(RejectRequest(t.id)) else None
  }

  /** A tour that is not in review gets no request from either button. */
  lemma SettledToursAreInert(t: Tour, confirmed: bool)
    requires t.status != "in-review"
    ensures ClickAccept(t).None? && ClickReject(t, confirmed).None?
  {
  }
}

=== FILE: banner.dfy ===
/** The home page banner: three slides, each with previous and next arrows
    that link to the neighbouring slide's anchor, wrapping at both ends. */
module Banner {

  import opened Numeric

  datatype Slide = Slide(id: int, title: string, cta: string)

  const Slides: seq<Slide> := [
    Slide(1, "Explore the Hidden Beauty of Sundarbans", "Explore Now"),
    Slide(2, "Heritage of Mahasthangarh", "Book A Tour"),
    Slide(3, "Local Tour Guides You Can Trust", "Meet Our Guides")
  ]

  /** The slides are numbered 1 to n in order. */
  lemma SlideIdsInOrder()
    ensures |Slides| == 3
    ensures forall k :: 0 <= k < |Slides| ==> Slides[k].id == k + 1
  {
  }

  /** The slide the left arrow of slide `id` links to. */
  function Prev(id: int): (r: int)
    ensures 1 <= id <= |Slides| ==> 1 <= r <= |Slides|
    ensures id == 1 ==> r == |Slides|
    ensures id != 1 ==> r + 1 == id
  {
    if id == 1 then |Slides| else id - 1
  }

  /** The slide the right arrow of slide `id` links to. */
  function Next(id: int): (r: int)
    ensures 1 <= id <= |Slides| ==> 1 <= r <= |Slides|
    ensures id == |Slides| ==> r == 1
    ensures id != |Slides| ==> r == id + 1
  {
    if id == |Slides| then 1 else id + 1
  }

  /** The two arrows undo each other on every slide. */
  lemma PrevNextInverse(id: int)
    requires 1 <= id <= |Slides|
    ensures Prev(Next(id)) == id && Next(Prev(id)) == id
  {
  }

  /** Following the right arrow `k` times. */
  function NextTimes(id: int, k: nat): int {
    if k == 0 then id else Next(NextTimes(id, k - 1))
  }

  /** `k` clicks on the right arrow move `k` slides on, modulo the count. */
  lemma {:induction false} NextTimesAdvances(id: int, k: nat)
    requires 1 <= id <= |Slides|
    ensures NextTimes(id, k) == (id - 1 + k) % |Slides| + 1
  {
    if k > 0 {
      NextTimesAdvances(id, k - 1);
      ModSucc(id - 1 + k - 1, |Slides|);
    }
  }

  /** Going right once per slide comes back to the start. */
  lemma FullCycle(id: int)
    requires 1 <= id <= |Slides|
    ensures NextTimes(id, |Slides|) == id
  {
    NextTimesAdvances(id, |Slides|);
    ModUnique(id - 1 + |Slides|, |Slides|, 1, id - 1);
  }

  /** Every arrow links to a slide that exists. */
  lemma ArrowsLinkToSlides(k: int)
    requires 0 <= k < |Slides|
    ensures exists j :: 0 <= j < |Slides| && Slides[j].id == Prev(Slides[k].id)
    ensures exists j :: 0 <= j < |Slides| && Slides[j].id == Next(Slides[k].id)
  {
    SlideIdsInOrder();
    var p, n := Prev(Slides[k].id), Next(Slides[k].id);
    assert Slides[p - 1].id == p;
    assert Slides[n - 1].id == n;
  }
}

=== FILE: booking_form.dfy ===
/** The "Book This Tour" form: the traveller counts typed by the user, the
    price breakdown, the discount line and the booking it submits. Prices
    are exact `real`s; the on-screen two-decimal rounding is not modelled. */
module BookingForm {

  import opened Optional
  import opened JsText

  /** The package fields the form reads. `oldPrice` is the pre-sale price. */
  datatype PackageDetails = PackageDetails(title: string, price: real, oldPrice: Option<real>)

  /** The form's state. A tour date is an opaque day number. */
  datatype FormState = FormState(tourDate: int, adults: int, children: int, guide: string)

  function InitialForm(today: int): FormState {
    FormState(today, 1, 0, "")
  }

  /** `parseInt(text) || 1`: an unparsable or zero adults entry becomes 1,
      anything else is kept (a negative count included). */
  function AdultsFromInput(text: string): (r: int)
    ensures r != 0
    ensures ParseInt(text).None? ==> r == 1
    ensures ParseInt(text) == Some(0) ==> r == 1
    ensures ParseInt(text).Some? && ParseInt(text).value != 0 ==> r == ParseInt(text).value
  {
    match ParseInt(text)
    case Some(n) => if n != 0 then n else 1
    case None => 1
  }

  /** `parseInt(text) || 0`: an unparsable children entry becomes 0. */
  function ChildrenFromInput(text: string): (r: int)
    ensures ParseInt(text).None? ==> r == 0
    ensures ParseInt(text).Some? ==> r == ParseInt(text).value
  {
    ParseInt(text).GetOr(0)
  }

  /** Typing the decimal form of a positive count of adults, or of any count
      of children, stores exactly that count. */
  lemma CountsRoundTrip(n: nat)
    ensures n > 0 ==> AdultsFromInput(ToDecimal(n)) == n
    ensures ChildrenFromInput(ToDecimal(n)) == n
  {
    ParseIntOfDecimal(n);
  }

  lemma EmptyInputFallbacks()
    ensures AdultsFromInput("") == 1
    ensures ChildrenFromInput("") == 0
  {
  }

  datatype Input = SetDate(day: int) | SetAdults(text: string) | SetChildren(text: string) | SetGuide(name: string)

  /** One edit of the form; each edit touches only its own field. */
  function Edit(f: FormState, i: Input): (r: FormState)
    ensures i.SetDate? ==> r == f.(tourDate := i.day)
    ensures i.SetAdults? ==> r == f.(adults := AdultsFromInput(i.text))
    ensures i.SetChildren? ==> r == f.(children := ChildrenFromInput(i.text))
    ensures i.SetGuide? ==> r == f.(guide := i.name)
    ensures f.adults != 0 ==> r.adults != 0
  {
    match i
    case SetDate(d) => f.(tourDate := d)
    case SetAdults(t) => f.(adults := AdultsFromInput(t))
    case SetChildren(t) => f.(children := ChildrenFromInput(t))
    case SetGuide(g) => f.(guide := g)
  }

  /** The price a booking is submitted with: full price per adult, half
      price per child. */
  function SubmittedPrice(price: real, adults: int, children: int): real {
    price * (adults as real + children as real * 0.5)
  }

  /** The breakdown shown under the form. */
  datatype Breakdown = Breakdown(adultTotal: real, childrenTotal: real, total: real, discount: real)

  /** The displayed total, summed line by line, equals the submitted price
      in exact arithmetic; the saving is the per-adult markdown times the
      number of adults when there is a (non-zero) old price, else 0. */
  function Summary(pkg: PackageDetails, adults: int, children: int): (b: Breakdown)
    ensures b.total == b.adultTotal + b.childrenTotal
    ensures b.total == SubmittedPrice(pkg.price, adults, children)
    ensures children == 0 ==> b.childrenTotal == 0.0
    ensures TruthyNumber(pkg.oldPrice) ==> b.discount == (pkg.oldPrice.value - pkg.price) * adults as real
    ensures !TruthyNumber(pkg.oldPrice) ==> b.discount == 0.0
  {
    var adultTotal := pkg.price * adults as real;
    var childrenTotal := pkg.price * 0.5 * children as real;
    var discount := if TruthyNumber(pkg.oldPrice) then (pkg.oldPrice.value - pkg.price) * adults as real else 0.0;
    Breakdown(adultTotal, childrenTotal, adultTotal + childrenTotal, discount)
  }

  /** Children never change the saving. */
  lemma DiscountIgnoresChildren(pkg: PackageDetails, adults: int, c1: int, c2: int)
    ensures Summary(pkg, adults, c1).discount == Summary(pkg, adults, c2).discount
  {
  }

  /** For a whole-number price, twice the total is a whole number: the price
      is exact in half-units. */
  lemma TotalInHalfUnits(price: int, adults: int, children: int)
    ensures 2.0 * SubmittedPrice(price as real, adults, children) == (price * (2 * adults + children)) as real
  {
  }

  /** Which optional lines of the breakdown are drawn. */
  datatype Lines = Lines(childrenLine: bool, savingLine: bool)

  function VisibleLines(pkg: PackageDetails, f: FormState): (l: Lines)
    ensures l.childrenLine <==> f.children > 0
    ensures l.savingLine <==> Summary(pkg, f.adults, f.children).discount > 0.0
    ensures !TruthyNumber(pkg.oldPrice) ==> !l.savingLine
  {
    Lines(f.children > 0, Summary(pkg, f.adults, f.children).discount > 0.0)
  }

  /** The browser's own checks from the inputs' `min` and `required`
      attributes, which must pass before the submit handler runs. */
  predicate BrowserAccepts(f: FormState) {
    f.adults >= 1 && f.children >= 0 && f.guide != ""
  }

  /** The booking handed to the parent. */
  datatype BookingRequest = BookingRequest(price: real, tourDate: int, tourGuide: string, adults: int, children: int)

  /** Submitting does nothing without a signed-in user (or when the browser
      refuses the form); otherwise the booking carries the form's date,
      guide and counts unchanged and the submitted price. */
  function Submit(signedIn: bool, pkg: PackageDetails, f: FormState): (r: Option<BookingRequest>)
    ensures !signedIn ==> r.None?
    ensures r.Some? <==> signedIn && BrowserAccepts(f)
    ensures r.Some? ==> r.value.adults == f.adults && r.value.children == f.children
    ensures r.Some? ==> r.value.tourDate == f.tourDate && r.value.tourGuide == f.guide
    ensures r.Some? ==> r.value.price == Summary(pkg, f.adults, f.children).total
  {
    if !signedIn || !BrowserAccepts(f) then None
    else Some(BookingRequest(SubmittedPrice(pkg.price, f.adults, f.children), f.tourDate, f.guide, f.adults, f.children))
  }
}

=== FILE: community_stories.dfy ===
/** The community stories page: the card previews, the like marker, the
    share menu, the story modal with its image gallery, and the comment
    form and list. */
module CommunityStories {

  import opened Optional
  import opened Numeric
  import opened JsText

  datatype Comment = Comment(id: string, authorName: Option<string>, text: string)

  /** A published story as the page receives it; `images`, `likedBy` and
      `comments` may be missing. */
  datatype Story = Story(
    id: Option<string>,
    title: string,
    images: Option<seq<string>>,
    likedBy: Option<seq<string>>,
    comments: Option<seq<Comment>>)

  /** The signed-in user's identifiers: `email`, `_id` and `id`. */
  datatype CurrentUser = CurrentUser(email: Option<string>, mongoId: Option<string>, uid: Option<string>)

  /** The page's own state. */
  datatype Page = Page(
    selected: Option<Story>,
    commentText: string,
    activeShareMenu: Option<string>,
    imageIndex: int)

  const InitialPage := Page(None, "", None, 0)

  function Images(s: Story): seq<string> {
    s.images.GetOr([])
  }

  function SelectedImageCount(p: Page): nat {
    if p.selected.Some? then |Images(p.selected.value)| else 0
  }

  /** Clicking a card's image area or its comment button opens the story
      on its first image. */
  function OpenStory(p: Page, s: Story): (r: Page)
    ensures r.selected == Some(s) && r.imageIndex == 0
    ensures r.commentText == p.commentText && r.activeShareMenu == p.activeShareMenu
  {
    p.(selected := Some(s), imageIndex := 0)
  }

  /** The backdrop and the close button both clear the selection. */
  function CloseModal(p: Page): (r: Page)
    ensures r.selected.None?
    ensures r == p.(selected := None)
  {
    p.(selected := None)
  }

  /** The gallery's previous (-1) and next (+1) buttons: the index moves
      with wrap-around modulo the number of images, computed with
      JavaScript's remainder; nothing happens without images. */
  function NavigateModalImage(p: Page, direction: int): (r: Page)
    ensures SelectedImageCount(p) == 0 ==> r == p
    ensures r == p.(imageIndex := r.imageIndex)
    ensures var n := SelectedImageCount(p);
      n > 0 && 0 <= p.imageIndex < n && (direction == 1 || direction == -1) ==> 0 <= r.imageIndex < n
    ensures var n := SelectedImageCount(p);
      n > 0 && 0 <= p.imageIndex < n && direction == 1 ==>
        r.imageIndex == (if p.imageIndex == n - 1 then 0 else p.imageIndex + 1)
    ensures var n := SelectedImageCount(p);
      n > 0 && 0 <= p.imageIndex < n && direction == -1 ==>
        r.imageIndex == (if p.imageIndex == 0 then n - 1 else p.imageIndex - 1)
  {
    var n := SelectedImageCount(p);
    if n == 0 then p
    else
      var r := p.(imageIndex := JsRem(p.imageIndex + direction + n, n));
      if 0 <= p.imageIndex < n && (direction == 1 || direction == -1) then
        WrapStep(p.imageIndex, direction, n);
        r
      else r
  }

  /** One step of the gallery index, with the remainder worked out. */
  lemma WrapStep(i: int, direction: int, n: int)
    requires 0 <= i < n && (direction == 1 || direction == -1)
    ensures JsRem(i + direction + n, n) ==
      if i + direction == n then 0 else if i + direction == -1 then n - 1 else i + direction
  {
    var a := i + direction + n;
    JsRemAgreesOnNaturals(a, n);
    if i + direction == n {
      ModUnique(a, n, 2, 0);
    } else if i + direction == -1 {
      ModUnique(a, n, 0, n - 1);
    } else {
      ModUnique(a, n, 1, i + direction);
    }
  }

  /** Next then previous returns to the same image. */
  lemma NextThenPrevious(p: Page)
    requires 0 <= p.imageIndex < SelectedImageCount(p)
    ensures NavigateModalImage(NavigateModalImage(p, 1), -1) == p
  {
  }

  /** Pressing next `k` times. */
  function NextTimes(p: Page, k: nat): Page {
    if k == 0 then p else NavigateModalImage(NextTimes(p, k - 1), 1)
  }

  lemma {:induction false} NextTimesAdvances(p: Page, k: nat)
    requires 0 <= p.imageIndex < SelectedImageCount(p)
    ensures NextTimes(p, k) == p.(imageIndex := (p.imageIndex + k) % SelectedImageCount(p))
  {
    if k > 0 {
      NextTimesAdvances(p, k - 1);
      var n := SelectedImageCount(p);
      var q := NextTimes(p, k - 1);
      assert SelectedImageCount(q) == n;
      ModSucc(p.imageIndex + k - 1, n);
      var m := (p.imageIndex + k - 1) % n;
      WrapStep(m, 1, n);
    }
  }

  /** Pressing next once per image comes back to the starting image. */
  lemma FullCycle(p: Page)
    requires 0 <= p.imageIndex < SelectedImageCount(p)
    ensures NextTimes(p, SelectedImageCount(p)) == p
  {
    var n := SelectedImageCount(p);
    NextTimesAdvances(p, n);
    ModUnique(p.imageIndex + n, n, 1, p.imageIndex);
  }

  /** The gallery's arrows and "k / n" counter appear only for several images. */
  predicate ShowGalleryArrows(p: Page) {
    SelectedImageCount(p) > 1
  }

  /** The share button: opens this story's menu, or closes it if it is the
      one open; at most one menu is ever open. */
  function ToggleShareMenu(p: Page, storyId: string): (r: Page)
    ensures r.activeShareMenu == Some(storyId) <==> p.activeShareMenu != Some(storyId)
    ensures r.activeShareMenu.Some? ==> r.activeShareMenu.value == storyId
    ensures r == p.(activeShareMenu := r.activeShareMenu)
  {
    p.(activeShareMenu := if p.activeShareMenu == Some(storyId) then None else Some(storyId))
  }

  /** The open menu's own close button. */
  function CloseShareMenu(p: Page): (r: Page)
    ensures r.activeShareMenu.None?
    ensures r == p.(activeShareMenu := None)
  {
    p.(activeShareMenu := None)
  }

  /** Closing a story's menu by its close button leaves the page as the
      share button's second press does. */
  lemma CloseAgreesWithToggle(p: Page, storyId: string)
    requires p.activeShareMenu == Some(storyId)
    ensures CloseShareMenu(p) == ToggleShareMenu(p, storyId)
  {
  }

  /** Pressing the same share button twice restores the menu unless a
      different story's menu was open before. */
  lemma ToggleTwice(p: Page, storyId: string)
    requires p.activeShareMenu.None? || p.activeShareMenu == Some(storyId)
    ensures ToggleShareMenu(ToggleShareMenu(p, storyId), storyId) == p
  {
  }

  /** A `likedBy` entry names the user when it equals one of their ids. */
  predicate NamesUser(entry: string, u: CurrentUser) {
    Some(entry) == u.email || Some(entry) == u.mongoId || Some(entry) == u.uid
  }

  /** `ids.some(...)`, scanning the entries in order. */
  function AnyNamesUser(ids: seq<string>, u: CurrentUser): (b: bool)
    ensures b <==> exists i :: 0 <= i < |ids| && NamesUser(ids[i], u)
  {
    if ids == [] then false
    else NamesUser(ids[0], u) || AnyNamesUser(ids[1..], u)
  }

  /** False without a user or without a `likedBy` list; otherwise true
      exactly when some entry is the user's email, `_id` or `id`. */
  function CheckIfLiked(user: Option<CurrentUser>, s: Story): (b: bool)
    ensures user.None? ==> !b
    ensures s.likedBy.None? ==> !b
    ensures user.Some? && s.likedBy.Some? ==>
      (b <==> exists i :: 0 <= i < |s.likedBy.value| && NamesUser(s.likedBy.value[i], user.value))
  {
    user.Some? && s.likedBy.Some? && AnyNamesUser(s.likedBy.value, user.value)
  }

  /** How a card previews its images. */
  datatype Preview = NoImage | Tiles(images: seq<string>, more: Option<nat>)

  /** A card shows the first `min(n, 3)` images, and a "+(n - 3)" overlay
      only when there are more than three. */
  function CardPreview(s: Story): (r: Preview)
    ensures r.NoImage? <==> |Images(s)| == 0
    ensures r.Tiles? ==> r.images == Images(s)[..Min(|Images(s)|, 3)]
    ensures r.Tiles? ==> (r.more.Some? <==> |Images(s)| > 3)
    ensures r.Tiles? && r.more.Some? ==> r.more.value == |Images(s)| - 3
  {
    var imgs := Images(s);
    if |imgs| == 0 then NoImage
    else
      var shown := imgs[..Min(|imgs|, 3)];
      var remaining := |imgs| - |shown|;
      Tiles(shown, if remaining > 0 then Some(remaining) else None)
  }

  /** The request a comment submission sends: the untrimmed text. */
  datatype CommentRequest = CommentRequest(storyId: string, text: string)

  /** A comment is sent only when it has a non-whitespace character and a
      story with an id is open; the text goes out as typed. */
  function SubmitComment(p: Page): (r: Option<CommentRequest>)
    ensures r.Some? <==> !AllSpace(p.commentText) && p.selected.Some? && TruthyString(p.selected.value.id)
    ensures r.Some? ==> r.value == CommentRequest(p.selected.value.id.value, p.commentText)
  {
    TrimEmptyIffAllSpace(p.commentText);
    if Trim(p.commentText) != "" && p.selected.Some? && TruthyString(p.selected.value.id)
    then Some(CommentRequest(p.selected.value.id.value, p.commentText))
    else None
  }

  /** A posted comment clears the box; a failed one keeps it. */
  function CommentPosted(p: Page, success: bool): (r: Page)
    ensures success ==> r == p.(commentText := "")
    ensures !success ==> r == p
  {
    if success then p.(commentText := "") else p
  }

  /** The Post button is disabled for a blank comment or while posting.
      `posting` is the comment mutation's `isLoading` as the installed
      query library reports it; a library that no longer has that field
      leaves it undefined, which is `false` here. */
  predicate PostDisabled(p: Page, posting: bool) {
    Trim(p.commentText) == "" || posting
  }

  /** Submitting the comment form, by the button or by Enter in the box.
      The form is drawn only for a signed-in user; a signed-out visitor
      sees a "Please log in" line instead and can send nothing. A disabled
      Post button blocks both the click and Enter, so nothing is sent while
      a comment is posting; otherwise the submit handler decides. */
  function SubmitCommentForm(p: Page, posting: bool, user: Option<CurrentUser>): (r: Option<CommentRequest>)
    ensures user.None? ==> r.None?
    ensures posting ==> r.None?
    ensures r.Some? <==> user.Some? && !PostDisabled(p, posting) && SubmitComment(p).Some?
    ensures r.Some? ==> r == SubmitComment(p)
  {
    if user.None? || PostDisabled(p, posting) then None else SubmitComment(p)
  }

  /** With a story open, the button's state and the handler's check agree:
      the form sends exactly when someone is signed in and the Post button
      is enabled. */
  lemma PostEnabledIffSent(p: Page, posting: bool, user: Option<CurrentUser>)
    requires p.selected.Some? && TruthyString(p.selected.value.id)
    ensures SubmitCommentForm(p, posting, user).Some? <==> user.Some? && !PostDisabled(p, posting)
  {
    TrimEmptyIffAllSpace(p.commentText);
  }

  /** The list order: newest first, i.e. the stored comments reversed. */
  function Reverse<T>(xs: seq<T>): (r: seq<T>)
    ensures |r| == |xs|
    ensures forall i :: 0 <= i < |xs| ==> r[i] == xs[|xs| - 1 - i]
  {
    if xs == [] then [] else Reverse(xs[1..]) + [xs[0]]
  }

  function DisplayedComments(s: Story): seq<Comment> {
    Reverse(s.comments.GetOr([]))
  }

  /** Reversing the displayed list gives back the stored order. */
  lemma DisplayedCommentsReversible(s: Story)
    ensures Reverse(DisplayedComments(s)) == s.comments.GetOr([])
  {
  }
}

=== FILE: join_as_tour_guide.dfy ===
/** The "Join as Tour Guide" application form: the application it sends,
    and how the form reacts when the request settles. The browser's own
    `required` and `type="url"` checks decide whether the submit handler
    runs at all; the URL check is an input. */
module JoinAsTourGuide {

  import opened Optional

  /** The signed-in user's account. */
  datatype Account = Account(email: string, displayName: Option<string>)

  /** The form's fields, the pending flag of the request, and the success
      modal. */
  datatype Page = Page(title: string, motivation: string, cvLink: string, pending: bool, successModal: bool)

  const InitialPage := Page("", "", "", false, false)

  /** The application posted to `/tour-guides-applications`. */
  datatype Application = Application(
    applicantEmail: string,
    applicantName: string,
    applicationTitle: string,
    motivation: string,
    cvLink: string,
    status: string,
    appliedAt: string)

  /** The browser lets the form submit only with every required field
      filled, a link it takes for a URL, and the button not disabled by a
      pending request. */
  predicate CanSubmit(p: Page, linkIsUrl: bool) {
    p.title != "" && p.motivation != "" && p.cvLink != "" && linkIsUrl && !p.pending
  }

  /** The application built from the fields: the user's email, the display
      name or else the email, the three fields as typed, and status
      "pending". Without a user, reading `user.email` throws and nothing is
      sent. */
  function ApplicationFrom(p: Page, user: Option<Account>, now: string): (a: Option<Application>)
    ensures a.Some? <==> user.Some?
    ensures a.Some? ==> a.value.applicantEmail == user.value.email
    ensures a.Some? ==> a.value.applicantName == StringOr(user.value.displayName, user.value.email)
    ensures a.Some? ==>
      && a.value.applicationTitle == p.title
      && a.value.motivation == p.motivation
      && a.value.cvLink == p.cvLink
    ensures a.Some? ==> a.value.status == "pending" && a.value.appliedAt == now
  {
    match user
    case None => None
    case Some(u) => Some(Application(u.email, StringOr(u.displayName, u.email), p.title, p.motivation, p.cvLink, "pending", now))
  }

  /** An applicant is never nameless: a user without a display name is
      named by their email. */
  lemma ApplicantNamed(p: Page, u: Account, now: string)
    requires u.email != ""
    ensures ApplicationFrom(p, Some(u), now).value.applicantName != ""
  {
  }

  /** Submitting: when the browser lets it through and a user is signed
      in, the application is sent and the request is pending. */
  function Submit(p: Page, linkIsUrl: bool, user: Option<Account>, now: string): (r: (Page, Option<Application>))
    ensures r.1.Some? <==> CanSubmit(p, linkIsUrl) && user.Some?
    ensures r.1.Some? ==> r.1 == ApplicationFrom(p, user, now) && r.0 == p.(pending := true)
    ensures r.1.None? ==> r.0 == p
  {
    if CanSubmit(p, linkIsUrl) && user.Some? then (p.(pending := true), ApplicationFrom(p, user, now))
    else (p, None)
  }

  /** The request settles: success clears the three fields and opens the
      success modal; failure keeps the fields as they were. */
  function Settle(p: Page, ok: bool): (r: Page)
    ensures !r.pending
    ensures ok ==> r.title == "" && r.motivation == "" && r.cvLink == "" && r.successModal
    ensures !ok ==> r == p.(pending := false)
  {
    if ok then Page("", "", "", false, true) else p.(pending := false)
  }

  /** The modal's Close button. */
  function CloseModal(p: Page): (r: Page)
    ensures !r.successModal
    ensures r == p.(successModal := false)
  {
    p.(successModal := false)
  }

  /** After a successful application the form cannot be sent again until
      it is filled in anew; after a failed one the same form can be sent
      again as it stands. */
  lemma ResubmitNeedsNewInput(p: Page, linkIsUrl: bool, user: Option<Account>, now: string)
    requires CanSubmit(p, linkIsUrl) && user.Some?
    ensures var sent := Submit(p, linkIsUrl, user, now).0;
      && Submit(Settle(sent, true), linkIsUrl, user, now).1.None?
      && Submit(Settle(sent, false), linkIsUrl, user, now).1 == ApplicationFrom(p, user, now)
  {
  }

  /** While the request is pending the button is disabled: a second click
      sends nothing. */
  lemma NoDoubleSubmit(p: Page, linkIsUrl: bool, user: Option<Account>, now: string)
    ensures var sent := Submit(p, linkIsUrl, user, now);
      sent.1.Some? ==> Submit(sent.0, linkIsUrl, user, now).1.None?
  {
  }
}

=== FILE: js_text.dfy ===
/** The few JavaScript string operations the components use:
    `String.prototype.trim`, `toLowerCase` (ASCII letters only),
    `includes`, `parseInt` on decimal text, and `length`. A `char` here is
    a Unicode scalar value; JavaScript strings are sequences of UTF-16 code
    units, so `Length` counts a character beyond the Basic Multilingual
    Plane twice, as `.length` does. */
module JsText {

  import opened Optional

  /** The characters matched by `\s` and removed by `trim()`: the ECMAScript
      WhiteSpace and LineTerminator code points. */
  predicate IsSpace(c: char) {
    || c == '\t' || c == '\n' || c == '\U{000B}' || c == '\U{000C}' || c == '\r'
    || c == ' ' || c == '\U{00A0}' || c == '\U{1680}'
    || ('\U{2000}' <= c <= '\U{200A}')
    || c == '\U{2028}' || c == '\U{2029}' || c == '\U{202F}' || c == '\U{205F}'
    || c == '\U{3000}' || c == '\U{FEFF}'
  }

  predicate AllSpace(s: string) {
    forall k :: 0 <= k < |s| ==> IsSpace(s[k])
  }

  /** The number of UTF-16 code units that encode `c`: two for a
      character written as a surrogate pair, one for any other. */
  function CodeUnits(c: char): (n: nat)
    ensures n == 1 || n == 2
    ensures n == 2 <==> c as int >= 0x1_0000
  {
    if c as int >= 0x1_0000 then 2 else 1
  }

  /** `s.length`: the number of UTF-16 code units of `s`. */
  function Length(s: string): (n: nat)
    ensures |s| <= n <= 2 * |s|
  {
    if s == [] then 0 else Length(s[..|s| - 1]) + CodeUnits(s[|s| - 1])
  }

  /** Lengths add up over concatenation. */
  lemma {:induction false} LengthAppend(a: string, b: string)
    ensures Length(a + b) == Length(a) + Length(b)
    decreases |b|
  {
    if b == [] {
      assert a + b == a;
    } else {
      var c := a + b;
      assert c[..|c| - 1] == a + b[..|b| - 1];
      assert c[|c| - 1] == b[|b| - 1];
      LengthAppend(a, b[..|b| - 1]);
    }
  }

  /** Within the Basic Multilingual Plane `.length` counts characters. */
  lemma {:induction false} LengthOfBmp(s: string)
    requires forall k :: 0 <= k < |s| ==> s[k] as int < 0x1_0000
    ensures Length(s) == |s|
  {
    if s != [] {
      LengthOfBmp(s[..|s| - 1]);
    }
  }

  /** An emoji is one `char` but two code units: two emoji and a letter
      are five units long to JavaScript, though only three characters. */
  lemma SurrogatePairsCountTwice()
    ensures |"\U{1F600}\U{1F600}a"| == 3 && Length("\U{1F600}\U{1F600}a") == 5
  {
    assert "\U{1F600}\U{1F600}a"[..2] == "\U{1F600}\U{1F600}";
    assert "\U{1F600}\U{1F600}"[..1] == "\U{1F600}";
  }

  /** `trimStart()`: drops the leading run of whitespace. */
  function TrimStart(s: string): (r: string)
    ensures |r| <= |s| && r == s[|s| - |r|..]
    ensures r == [] || !IsSpace(r[0])
    ensures AllSpace(s[..|s| - |r|])
  {
    if |s| > 0 && IsSpace(s[0]) then TrimStart(s[1..]) else s
  }

  /** `trimEnd()`: drops the trailing run of whitespace. */
  function TrimEnd(s: string): (r: string)
    ensures |r| <= |s| && r == s[..|r|]
    ensures r == [] || !IsSpace(r[|r| - 1])
    ensures AllSpace(s[|r|..])
  {
    if |s| > 0 && IsSpace(s[|s| - 1]) then
      var r := TrimEnd(s[..|s| - 1]);
      assert s[|r|..] == s[..|s| - 1][|r|..] + [s[|s| - 1]];
      r
    else s
  }

  /** `trim()`: a contiguous piece of the input that neither starts nor ends
      with whitespace, everything cut off around it being whitespace. */
  function Trim(s: string): (r: string)
    ensures exists i :: OccursAt(s, r, i) && AllSpace(s[..i]) && AllSpace(s[i + |r|..])
    ensures r == [] || (!IsSpace(r[0]) && !IsSpace(r[|r| - 1]))
  {
    var t := TrimStart(s);
    var r := TrimEnd(t);
    TrimParts(s, t, r);
    r
  }

  /** The two halves of `trim()` fit together: what `trimStart` keeps
      is the suffix `t` of `s`, and `trimEnd` keeps a prefix `r` of that,
      so `r` sits at `|s| - |t|` between two runs of whitespace. */
  lemma TrimParts(s: string, t: string, r: string)
    requires |t| <= |s| && t == s[|s| - |t|..] && AllSpace(s[..|s| - |t|])
    requires |r| <= |t| && r == t[..|r|] && AllSpace(t[|r|..])
    ensures var i := |s| - |t|;
      OccursAt(s, r, i) && AllSpace(s[..i]) && AllSpace(s[i + |r|..])
  {
    assert s[|s| - |t| + |r|..] == t[|r|..];
  }

  /** A string trims to nothing exactly when every character is whitespace. */
  lemma TrimEmptyIffAllSpace(s: string)
    ensures Trim(s) == [] <==> AllSpace(s)
  {
    var r := Trim(s);
    var i :| OccursAt(s, r, i) && AllSpace(s[..i]) && AllSpace(s[i + |r|..]);
    if r == [] {
      SpaceOnBothSides(s, i);
    } else {
      assert r[0] == s[i];
    }
  }

  /** Whitespace on both sides of a position is whitespace throughout. */
  lemma SpaceOnBothSides(s: string, i: int)
    requires 0 <= i <= |s| && AllSpace(s[..i]) && AllSpace(s[i..])
    ensures AllSpace(s)
  {
    forall k | 0 <= k < |s|
      ensures IsSpace(s[k])
    {
      if k < i {
        assert s[k] == s[..i][k];
      } else {
        assert s[k] == s[i..][k - i];
      }
    }
  }

  /** Trimming a trimmed string changes nothing. */
  lemma TrimIdempotent(s: string)
    ensures Trim(Trim(s)) == Trim(s)
  {
    var r := Trim(s);
    if r != [] {
      assert TrimStart(r) == r;
      assert TrimEnd(r) == r;
    }
  }

  /** ASCII `toLowerCase` of one character. */
  function LowerChar(c: char): (r: char)
    ensures 'A' <= c <= 'Z' ==> 'a' <= r <= 'z'
    ensures !('A' <= c <= 'Z') ==> r == c
  {
    if 'A' <= c <= 'Z' then (c as int + 32) as char else c
  }

  /** `toLowerCase()`, restricted to the ASCII letters. */
  function ToLower(s: string): (r: string)
    ensures |r| == |s|
    ensures forall k :: 0 <= k < |s| ==> r[k] == LowerChar(s[k])
  {
    seq(|s|, k requires 0 <= k < |s| => LowerChar(s[k]))
  }

  /** `needle` occurs in `hay` starting at index `i`. */
  predicate OccursAt(hay: string, needle: string, i: int) {
    0 <= i && i + |needle| <= |hay| && hay[i..i + |needle|] == needle
  }

  /** `hay.includes(needle)`, scanning left to right. */
  function Includes(hay: string, needle: string): bool
    decreases |hay|
  {
    if |needle| <= |hay| && hay[..|needle|] == needle then true
    else if |hay| == 0 then false
    else Includes(hay[1..], needle)
  }

  /** The scan answers true exactly when the needle occurs somewhere. */
  lemma {:induction false} IncludesIffOccurs(hay: string, needle: string)
    ensures Includes(hay, needle) <==> exists i :: OccursAt(hay, needle, i)
    decreases |hay|
  {
    if |needle| <= |hay| && hay[..|needle|] == needle {
      assert OccursAt(hay, needle, 0);
    } else if |hay| == 0 {
    } else {
      IncludesIffOccurs(hay[1..], needle);
      if exists i :: OccursAt(hay, needle, i) {
        var i :| OccursAt(hay, needle, i);
        assert i != 0;
        assert hay[1..][i - 1..i - 1 + |needle|] == hay[i..i + |needle|];
        assert OccursAt(hay[1..], needle, i - 1);
      }
      if exists j :: OccursAt(hay[1..], needle, j) {
        var j :| OccursAt(hay[1..], needle, j);
        assert hay[1..][j..j + |needle|] == hay[j + 1..j + 1 + |needle|];
        assert OccursAt(hay, needle, j + 1);
      }
    }
  }

  /** The empty string is included in every string. */
  lemma IncludesEmpty(hay: string)
    ensures Includes(hay, "")
  {
  }

  predicate IsDigit(c: char) {
    '0' <= c <= '9'
  }

  function DigitValue(c: char): (d: nat)
    requires IsDigit(c)
    ensures d < 10
  {
    c as int - '0' as int
  }

  function DigitChar(d: nat): (c: char)
    requires d < 10
    ensures IsDigit(c) && DigitValue(c) == d
  {
    ('0' as int + d) as char
  }

  /** The leading run of decimal digits. */
  function DigitRun(s: string): (r: string)
    ensures |r| <= |s| && r == s[..|r|]
    ensures forall k :: 0 <= k < |r| ==> IsDigit(r[k])
    ensures |r| == |s| || !IsDigit(s[|r|])
  {
    if |s| > 0 && IsDigit(s[0]) then [s[0]] + DigitRun(s[1..]) else []
  }

  /** The value of a run of decimal digits, read most significant first. */
  function DigitsValue(ds: string): nat
    requires forall k :: 0 <= k < |ds| ==> IsDigit(ds[k])
  {
    if |ds| == 0 then 0
    else DigitsValue(ds[..|ds| - 1]) * 10 + DigitValue(ds[|ds| - 1])
  }

  /** What `parseInt` reads digits from: the text after leading whitespace
      and one optional sign character. */
  function Unsigned(s: string): (u: string)
    ensures |u| <= |s| && u == s[|s| - |u|..]
  {
    var t := TrimStart(s);
    if |t| > 0 && (t[0] == '-' || t[0] == '+') then t[1..] else t
  }

  predicate NegativeSign(s: string) {
    var t := TrimStart(s);
    |t| > 0 && t[0] == '-'
  }

  /** `parseInt(s)` with no radix, on decimal text: skip leading whitespace,
      read an optional sign, then the longest run of digits; `NaN` (here
      `None`) when there is no digit there. */
  function ParseInt(s: string): (r: Option<int>)
    ensures r.Some? <==> |Unsigned(s)| > 0 && IsDigit(Unsigned(s)[0])
    ensures r.Some? && !NegativeSign(s) ==> r.value >= 0
    ensures r.Some? && NegativeSign(s) ==> r.value <= 0
    ensures r.Some? ==> r.value == DigitsValue(DigitRun(Unsigned(s))) || r.value == -(DigitsValue(DigitRun(Unsigned(s))) as int)
  {
    var ds := DigitRun(Unsigned(s));
    var v := DigitsValue(ds);
    if ds == [] then None
    else if NegativeSign(s) then Some(-(v as int))
    else Some(v)
  }

  /** The decimal rendering of a natural number, as `String(n)` gives it. */
  function ToDecimal(n: nat): (s: string)
    ensures |s| > 0
    ensures forall k :: 0 <= k < |s| ==> IsDigit(s[k])
  {
    if n < 10 then [DigitChar(n)] else ToDecimal(n / 10) + [DigitChar(n % 10)]
  }

  lemma {:induction false} DigitsValueOfDecimal(n: nat)
    ensures DigitsValue(ToDecimal(n)) == n
  {
    if n >= 10 {
      var s := ToDecimal(n);
      assert s[..|s| - 1] == ToDecimal(n / 10);
      DigitsValueOfDecimal(n / 10);
    }
  }

  lemma {:induction false} DigitRunOfDigits(s: string)
    requires forall k :: 0 <= k < |s| ==> IsDigit(s[k])
    ensures DigitRun(s) == s
  {
    if |s| > 0 {
      DigitRunOfDigits(s[1..]);
    }
  }

  /** Text that starts with a digit is read from its first character:
      there is neither whitespace nor a sign to skip. */
  lemma UnsignedOfDigitStart(s: string)
    requires |s| > 0 && IsDigit(s[0])
    ensures TrimStart(s) == s && Unsigned(s) == s && !NegativeSign(s)
  {
    assert !IsSpace(s[0]);
  }

  /** Round trip: `parseInt` reads back what `String(n)` wrote. */
  lemma ParseIntOfDecimal(n: nat)
    ensures ParseInt(ToDecimal(n)) == Some(n)
  {
    var s := ToDecimal(n);
    DigitRunOfDigits(s);
    DigitsValueOfDecimal(n);
    UnsignedOfDigitStart(s);
  }

  /** Digits followed by anything that is not a digit: the run stops
      where the digits do. */
  lemma {:induction false} DigitRunStopsAtNonDigit(ds: string, rest: string)
    requires forall k :: 0 <= k < |ds| ==> IsDigit(ds[k])
    requires rest == [] || !IsDigit(rest[0])
    ensures DigitRun(ds + rest) == ds
  {
    if ds == [] {
      assert ds + rest == rest;
    } else {
      assert (ds + rest)[1..] == ds[1..] + rest;
      DigitRunStopsAtNonDigit(ds[1..], rest);
    }
  }

  /** `parseInt` reads a number off the front of the text and ignores
      whatever follows the digits, as in "12abc" or "3 adults". */
  lemma ParseIntReadsLeadingNumber(n: nat, rest: string)
    requires rest == [] || !IsDigit(rest[0])
    ensures ParseInt(ToDecimal(n) + rest) == Some(n)
  {
    var s := ToDecimal(n);
    DigitRunStopsAtNonDigit(s, rest);
    DigitsValueOfDecimal(n);
    UnsignedOfDigitStart(s + rest);
  }

  /** The same with a minus sign in front. */
  lemma ParseIntOfNegativeDecimal(n: nat)
    ensures ParseInt("-" + ToDecimal(n)) == Some(-(n as int))
  {
    var s := ToDecimal(n);
    DigitRunOfDigits(s);
    DigitsValueOfDecimal(n);
    var m := "-" + s;
    assert TrimStart(m) == m;
    assert m[1..] == s;
    assert Unsigned(m) == s && NegativeSign(m);
  }

  predicate IsAsciiUpper(c: char) {
    'A' <= c <= 'Z'
  }

  predicate IsAsciiLower(c: char) {
    'a' <= c <= 'z'
  }

  predicate IsAsciiLetter(c: char) {
    IsAsciiUpper(c) || IsAsciiLower(c)
  }

  /** `s.indexOf(c)`: the first position of `c`, or -1. */
  function IndexOf(s: string, c: char): (r: int)
    ensures -1 <= r < |s|
    ensures r >= 0 ==> s[r] == c
    ensures forall k :: 0 <= k < |s| && (r < 0 || k < r) ==> s[k] != c
  {
    if |s| == 0 then -1
    else if s[0] == c then 0
    else
      var k := IndexOf(s[1..], c);
      if k < 0 then -1 else k + 1
  }

  /** `s.lastIndexOf(c)`: the last position of `c`, or -1. */
  function LastIndexOf(s: string, c: char): (r: int)
    ensures -1 <= r < |s|
    ensures r >= 0 ==> s[r] == c
    ensures forall k :: r < k < |s| ==> s[k] != c
  {
    if |s| == 0 then -1
    else if s[|s| - 1] == c then |s| - 1
    else LastIndexOf(s[..|s| - 1], c)
  }
}

=== FILE: login.dfy ===
/** The sign-in page: the email and password rules, the message for a
    failed sign-in, the redirect after success, the loading flag and the
    show-password toggle. */
module Login {

  import opened Optional
  import opened JsText
  import opened RouteState
  import Registration

  const PasswordMinLength: nat := 6

  /** `[A-Z0-9._%+-]` under the case-insensitive flag. */
  predicate LocalChar(c: char) {
    IsAsciiLetter(c) || IsDigit(c) || c == '.' || c == '_' || c == '%' || c == '+' || c == '-'
  }

  /** `[A-Z0-9.-]` under the case-insensitive flag. */
  predicate DomainChar(c: char) {
    IsAsciiLetter(c) || IsDigit(c) || c == '.' || c == '-'
  }

  /** `s` splits as `local '@' domain '.' letters`, the '@' at `at` and the
      last '.' at `dot`: a non-empty local part, a non-empty domain that may
      contain dots and hyphens, and at least two letters after the dot. */
  predicate EmailSplit(s: string, at: int, dot: int) {
    && 0 < at && at + 1 < dot && dot + 2 < |s|
    && s[at] == '@' && s[dot] == '.'
    && (forall k :: 0 <= k < at ==> LocalChar(s[k]))
    && (forall k :: at < k < dot ==> DomainChar(s[k]))
    && (forall k :: dot < k < |s| ==> IsAsciiLetter(s[k]))
  }

  /** The sign-in pattern `[A-Z0-9._%+-]+@[A-Z0-9.-]+\.[A-Z]{2,}`, anchored
      and case-insensitive: some split of the text fits. */
  ghost predicate EmailPattern(s: string) {
    exists at, dot :: EmailSplit(s, at, dot)
  }

  /** A direct check of the pattern: the first '@' and the last '.' are the
      split points. */
  predicate EmailCheck(s: string) {
    var at := IndexOf(s, '@');
    var dot := LastIndexOf(s, '.');
    && at > 0 && at + 1 < dot && dot + 2 < |s|
    && (forall k :: 0 <= k < at ==> LocalChar(s[k]))
    && (forall k :: at < k < dot ==> DomainChar(s[k]))
    && (forall k :: dot < k < |s| ==> IsAsciiLetter(s[k]))
  }

  /** The direct check accepts exactly the texts the pattern matches: a
      split can only sit at the first '@' (the local part has none) and the
      last '.' (the letters after it have none). */
  lemma EmailCheckMatchesPattern(s: string)
    ensures EmailCheck(s) <==> EmailPattern(s)
  {
    if EmailCheck(s) {
      assert EmailSplit(s, IndexOf(s, '@'), LastIndexOf(s, '.'));
    }
    if EmailPattern(s) {
      var at, dot :| EmailSplit(s, at, dot);
      assert IndexOf(s, '@') == at;
      assert LastIndexOf(s, '.') == dot;
    }
  }

  /** The email rule: required, then the pattern. */
  function EmailError(email: string): (e: Option<string>)
    ensures e.None? <==> email != "" && EmailPattern(email)
    ensures email == "" ==> e == Some("Email is required")
    ensures email != "" && !EmailPattern(email) ==> e == Some("Invalid email address")
  {
    EmailCheckMatchesPattern(email);
    if email == "" then Some("Email is required")
    else if !EmailCheck(email) then Some("Invalid email address")
    else None
  }

  /** Every address the sign-in page accepts is one registration accepts. */
  lemma SignInEmailIsRegistrationEmail(s: string)
    requires EmailPattern(s)
    ensures Registration.EmailPattern(s)
  {
    var at, dot :| EmailSplit(s, at, dot);
    assert Registration.EmailSplit(s, at, dot);
  }

  /** The converse fails: a one-letter suffix registers but cannot sign in. */
  lemma RegistrationEmailNotAlwaysSignIn()
    ensures Registration.EmailPattern("a@b.c") && !EmailPattern("a@b.c")
  {
    assert Registration.EmailSplit("a@b.c", 1, 3);
  }

  /** The password rule: required and at least six characters, with no
      character-class rule. */
  function PasswordError(password: string): (e: Option<string>)
    ensures e.None? <==> Length(password) >= PasswordMinLength
    ensures password == "" ==> e == Some("Password is required")
    ensures password != "" && Length(password) < PasswordMinLength ==> e == Some("Password must be at least 6 characters")
  {
    if password == "" then Some("Password is required")
    else if Length(password) < PasswordMinLength then Some("Password must be at least 6 characters")
    else None
  }

  /** A password registration accepts is one sign-in accepts, but not the
      other way round. */
  lemma RegistrationPasswordIsSignInPassword(password: string)
    ensures Registration.PasswordError(password).None? ==> PasswordError(password).None?
    ensures PasswordError("abcdef").None? && Registration.PasswordError("abcdef").Some?
  {
    assert !Registration.HasUpper("abcdef");
  }

  const DefaultFailure := "Login failed. Please try again."

  /** The message for a failed sign-in, by the error's code. */
  function FailureMessage(code: Option<string>): (m: string)
    ensures code == Some("auth/user-not-found") ==> m == "User not found. Please register."
    ensures code == Some("auth/wrong-password") ==> m == "Incorrect password."
    ensures code != Some("auth/user-not-found") && code != Some("auth/wrong-password") ==> m == DefaultFailure
  {
    if code == Some("auth/user-not-found") then "User not found. Please register."
    else if code == Some("auth/wrong-password") then "Incorrect password."
    else DefaultFailure
  }

  /** The page's own state. */
  datatype Page = Page(loading: bool, showPassword: bool)

  const InitialPage := Page(false, false)

  /** The eye button flips the password's visibility and nothing else. */
  function TogglePasswordVisibility(p: Page): (r: Page)
    ensures r.showPassword != p.showPassword
    ensures r.loading == p.loading
  {
    p.(showPassword := !p.showPassword)
  }

  lemma ToggleTwice(p: Page)
    ensures TogglePasswordVisibility(TogglePasswordVisibility(p)) == p
  {
  }

  /** The sign-in call's outcome: success, or an error with an optional code. */
  datatype AuthResult = SignedIn | Failed(code: Option<string>)

  datatype Alert = SuccessAlert | ErrorAlert(text: string)

  /** What a submission did: the state while the call is pending, the state
      after it settles, the alert shown, and where the page went. */
  datatype Outcome = Outcome(pending: Page, settled: Page, alert: Alert, navigateTo: Option<string>)

  /** Submitting the form, which runs only when both fields pass their
      rules and no sign-in is pending (the button is disabled meanwhile,
      which also stops Enter from submitting): loading is on while the call is pending and off once it
      settles, whatever the result; success goes to the redirect target and
      failure shows the code's message and stays. */
  function Submit(p: Page, email: string, password: string, st: LocationState, result: AuthResult): (o: Option<Outcome>)
    ensures o.Some? <==> !p.loading && EmailError(email).None? && PasswordError(password).None?
    ensures o.Some? ==> o.value.pending.loading && !o.value.settled.loading
    ensures o.Some? ==> o.value.settled.showPassword == p.showPassword
    ensures o.Some? ==> (o.value.navigateTo.Some? <==> result.SignedIn?)
    ensures o.Some? && result.SignedIn? ==> o.value.navigateTo == Some(RedirectTarget(st)) && o.value.alert == SuccessAlert
    ensures o.Some? && result.Failed? ==> o.value.alert == ErrorAlert(FailureMessage(result.code))
  {
    if p.loading || EmailError(email).Some? || PasswordError(password).Some? then None
    else
      var pending := p.(loading := true);
      var settled := pending.(loading := false);
      match result
      case SignedIn => Some(Outcome(pending, settled, SuccessAlert, Some(RedirectTarget(st))))
      case Failed(code) => Some(Outcome(pending, settled, ErrorAlert(FailureMessage(code)), None))
  }

  /** While a sign-in is pending no second one starts, and once it has
      settled the same form can be sent again. */
  lemma NoDoubleSignIn(p: Page, email: string, password: string, st: LocationState, result: AuthResult, again: AuthResult)
    requires EmailError(email).None? && PasswordError(password).None? && !p.loading
    ensures var o := Submit(p, email, password, st, result).value;
      && Submit(o.pending, email, password, st, again).None?
      && Submit(o.settled, email, password, st, again).Some?
  {
  }
}

=== FILE: manage_candidates.dfy ===
/** The admin's tour-guide applications table: what approving and
    rejecting an application do to the server's applications and user
    roles, the role label, and the empty state. The role update and the
    deletion are started together and succeed or fail independently. */
module ManageCandidates {

  import opened Optional

  datatype Application = Application(
    id: string,
    applicantEmail: string,
    applicantName: string,
    currentRole: Option<string>)

  /** The server state the page acts on: the open applications and each
      user's role, by email. */
  datatype Server = Server(applications: seq<Application>, roles: map<string, string>)

  const GuideRole := "tour-guide"

  /** The applications left after deleting the one with id `id`, in order. */
  function RemoveApplication(apps: seq<Application>, id: string): (r: seq<Application>)
    ensures |r| <= |apps|
    ensures multiset(r) <= multiset(apps)
    ensures forall a :: a in r <==> a in apps && a.id != id
  {
    if apps == [] then []
    else
      var rest := RemoveApplication(apps[1..], id);
      assert apps == [apps[0]] + apps[1..];
      assert multiset(apps) == multiset{apps[0]} + multiset(apps[1..]);
      if apps[0].id == id then rest
      else
        var r := [apps[0]] + rest;
        assert multiset(r) == multiset{apps[0]} + multiset(rest);
        r
  }

  /** Deleting an id no application has leaves the list as it is. */
  lemma {:induction false} RemoveAbsentIsIdentity(apps: seq<Application>, id: string)
    requires forall k :: 0 <= k < |apps| ==> apps[k].id != id
    ensures RemoveApplication(apps, id) == apps
  {
    if apps != [] {
      RemoveAbsentIsIdentity(apps[1..], id);
    }
  }

  /** Deleting twice is deleting once. */
  lemma RemoveIdempotent(apps: seq<Application>, id: string)
    ensures RemoveApplication(RemoveApplication(apps, id), id) == RemoveApplication(apps, id)
  {
    RemoveAbsentIsIdentity(RemoveApplication(apps, id), id);
  }

  /** Deleting from a list split in two deletes from each part and keeps
      the parts in order: the relative order of the remaining applications
      is the order they had. */
  lemma {:induction false} RemoveAppend(xs: seq<Application>, ys: seq<Application>, id: string)
    ensures RemoveApplication(xs + ys, id) == RemoveApplication(xs, id) + RemoveApplication(ys, id)
    decreases |xs|
  {
    if xs == [] {
      assert xs + ys == ys;
    } else {
      assert (xs + ys)[1..] == xs[1..] + ys;
      RemoveAppend(xs[1..], ys, id);
    }
  }

  /** Deleting from a list cut around position `i` deletes from the part
      before it, from the application at `i`, and from the part after it. */
  lemma RemoveAround(apps: seq<Application>, i: int, id: string)
    requires 0 <= i < |apps|
    ensures RemoveApplication(apps, id)
         == RemoveApplication(apps[..i], id) + RemoveApplication([apps[i]], id) + RemoveApplication(apps[i + 1..], id)
  {
    assert apps == apps[..i] + ([apps[i]] + apps[i + 1..]);
    RemoveAppend(apps[..i], [apps[i]] + apps[i + 1..], id);
    RemoveAppend([apps[i]], apps[i + 1..], id);
  }

  /** Only the application with that id goes: deleting it from a list
      that holds it once, at position `i`, leaves the rest in order. */
  lemma RemoveOnlyThatOne(apps: seq<Application>, i: int, id: string)
    requires 0 <= i < |apps| && apps[i].id == id
    requires forall k :: 0 <= k < |apps| && k != i ==> apps[k].id != id
    ensures RemoveApplication(apps, id) == apps[..i] + apps[i + 1..]
  {
    RemoveAround(apps, i, id);
    var before, after := apps[..i], apps[i + 1..];
    assert forall k :: 0 <= k < |before| ==> before[k] == apps[k];
    assert forall k :: 0 <= k < |after| ==> after[k] == apps[i + 1 + k];
    RemoveAbsentIsIdentity(before, id);
    RemoveAbsentIsIdentity(after, id);
    RemoveMatching(apps[i], id);
    assert before + [] == before;
  }

  /** The application with that id is the one deleted. */
  lemma RemoveMatching(a: Application, id: string)
    requires a.id == id
    ensures RemoveApplication([a], id) == []
  {
    assert [a][1..] == [];
  }

  /** The effects of one dialog: the requests it started and the server
      state after them, and whether the success alert was shown. */
  datatype Effects = Effects(server: Server, roleRequest: bool, deleteRequest: bool, successAlert: bool)

  /** Approve: after confirmation both requests start; a successful role
      update makes the applicant a tour guide, a successful deletion
      removes the application, each independently of the other, and the
      success alert shows whatever the requests' results. A cancelled
      dialog changes nothing. */
  function Approve(s: Server, app: Application, confirmed: bool, roleOk: bool, deleteOk: bool): (e: Effects)
    ensures !confirmed ==> e == Effects(s, false, false, false)
    ensures confirmed ==> e.roleRequest && e.deleteRequest && e.successAlert
    ensures confirmed && roleOk ==> e.server.roles == s.roles[app.applicantEmail := GuideRole]
    ensures !(confirmed && roleOk) ==> e.server.roles == s.roles
    ensures confirmed && deleteOk ==> e.server.applications == RemoveApplication(s.applications, app.id)
    ensures !(confirmed && deleteOk) ==> e.server.applications == s.applications
  {
    if !confirmed then Effects(s, false, false, false)
    else
      var roles := if roleOk then s.roles[app.applicantEmail := GuideRole] else s.roles;
      var apps := if deleteOk then RemoveApplication(s.applications, app.id) else s.applications;
      Effects(Server(apps, roles), true, true, true)
  }

  /** Reject: after confirmation only the deletion starts, and the
      'Rejected!' alert shows whatever its result, since the mutation is
      not awaited; roles never change. A cancelled dialog changes nothing. */
  function Reject(s: Server, app: Application, confirmed: bool, deleteOk: bool): (e: Effects)
    ensures !confirmed ==> e == Effects(s, false, false, false)
    ensures e.server.roles == s.roles && !e.roleRequest
    ensures e.deleteRequest <==> confirmed
    ensures e.successAlert <==> confirmed
    ensures confirmed && deleteOk ==> e.server.applications == RemoveApplication(s.applications, app.id)
    ensures !(confirmed && deleteOk) ==> e.server.applications == s.applications
  {
    if !confirmed then Effects(s, false, false, false)
    else
      var apps := if deleteOk then RemoveApplication(s.applications, app.id) else s.applications;
      Effects(Server(apps, s.roles), false, true, true)
  }

  /** A fully successful approval makes the applicant a guide and takes
      the application off the list; only the applicant's role changes. */
  lemma ApprovalCompletes(s: Server, app: Application)
    ensures var e := Approve(s, app, true, true, true);
      && e.server.roles[app.applicantEmail] == GuideRole
      && (forall k :: 0 <= k < |e.server.applications| ==> e.server.applications[k].id != app.id)
      && (forall u :: u in s.roles && u != app.applicantEmail ==> u in e.server.roles && e.server.roles[u] == s.roles[u])
  {
  }

  /** Approve and Reject agree on what happens to the application list. */
  lemma ApproveAndRejectRemoveAlike(s: Server, app: Application, confirmed: bool, roleOk: bool, deleteOk: bool)
    ensures Approve(s, app, confirmed, roleOk, deleteOk).server.applications
         == Reject(s, app, confirmed, deleteOk).server.applications
  {
  }

  /** The role shown for an applicant: `currentRole || 'Tourist'`. */
  function RoleLabel(app: Application): (r: string)
    ensures TruthyString(app.currentRole) ==> r == app.currentRole.value
    ensures !TruthyString(app.currentRole) ==> r == "Tourist"
  {
    StringOr(app.currentRole, "Tourist")
  }

  /** The "No pending applications" block shows unless the response has a
      non-empty `data` list. */
  predicate ShowEmptyState(data: Option<seq<Application>>) {
    !(data.Some? && |data.value| > 0)
  }
}

=== FILE: manage_users.dfy ===
/** The admin "Manage Users" table: which users a response lists, how many
    pages there are, the five-button page window, the « and » buttons, the
    search and role filters, and which rows are locked. */
module ManageUsers {

  import opened Numeric
  import opened Optional

  const UsersPerPage: nat := 10
  const WindowWidth: nat := 5

  datatype User = User(id: string, name: string, email: string, role: Option<string>)

  /** The parts of the `/admin/users` response the table reads. */
  datatype UsersResponse = UsersResponse(
    data: Option<seq<User>>,
    users: Option<seq<User>>,
    paginationTotal: Option<nat>,
    total: Option<nat>)

  /** `data || users || []`: an array is truthy even when empty, so a present
      `data` wins over `users` whatever its length. */
  function ListedUsers(resp: UsersResponse): (r: seq<User>)
    ensures resp.data.Some? ==> r == resp.data.value
    ensures resp.data.None? && resp.users.Some? ==> r == resp.users.value
    ensures resp.data.None? && resp.users.None? ==> r == []
  {
    match resp.data
    case Some(d) => d
    case None => resp.users.GetOr([])
  }

  /** `pagination.total || total || 0`: a zero count is falsy and falls
      through to the next source. */
  function TotalUsers(resp: UsersResponse): (r: nat)
    ensures resp.paginationTotal.Some? && resp.paginationTotal.value != 0 ==> r == resp.paginationTotal.value
    ensures (resp.paginationTotal.None? || resp.paginationTotal.value == 0) ==> r == resp.total.GetOr(0)
  {
    if resp.paginationTotal.Some? && resp.paginationTotal.value != 0 then resp.paginationTotal.value
    else resp.total.GetOr(0)
  }

  /** The number of pages: the fewest pages of ten that hold every user. */
  function TotalPages(totalUsers: nat): (r: nat)
    ensures r * UsersPerPage >= totalUsers
    ensures r > 0 ==> (r - 1) * UsersPerPage < totalUsers
    ensures r == 0 <==> totalUsers == 0
  {
    CeilDiv(totalUsers, UsersPerPage)
  }

  /** The number written on the `i`-th page button. */
  function PageButton(totalPages: int, currentPage: int, i: int): int {
    if totalPages <= WindowWidth then i + 1
    else if currentPage <= 3 then i + 1
    else if currentPage >= totalPages - 2 then totalPages - 4 + i
    else currentPage - 2 + i
  }

  /** The page buttons: `min(totalPages, 5)` of them. Whatever the current
      page, they count up by one from `max(1, min(currentPage - 2,
      totalPages - 4))`, i.e. a window of five centred on the current page
      and pushed back inside `[1, totalPages]`; for a current page in that
      range every button lies in it and the current page has a button. */
  function PageWindow(totalPages: nat, currentPage: int): (w: seq<int>)
    ensures |w| == Min(totalPages, WindowWidth)
    ensures forall i :: 0 <= i < |w| ==> w[i] == Max(1, Min(currentPage - 2, totalPages - 4)) + i
    ensures 1 <= currentPage <= totalPages ==> forall i :: 0 <= i < |w| ==> 1 <= w[i] <= totalPages
    ensures 1 <= currentPage <= totalPages ==> currentPage in w
  {
    var w := seq(Min(totalPages, WindowWidth), i => PageButton(totalPages, currentPage, i));
    if 1 <= currentPage <= totalPages then
      var start := Max(1, Min(currentPage - 2, totalPages - 4));
      assert w[currentPage - start] == currentPage;
      w
    else w
  }

  /** « moves one page back, never below page 1. */
  function PrevPage(currentPage: int): (r: int)
    ensures r >= 1
    ensures currentPage > 1 ==> r == currentPage - 1
    ensures currentPage <= 1 ==> r == 1
  {
    Max(currentPage - 1, 1)
  }

  /** » moves one page forward, never past the last page. */
  function NextPage(currentPage: int, totalPages: int): (r: int)
    ensures r <= totalPages
    ensures currentPage < totalPages ==> r == currentPage + 1
    ensures currentPage >= totalPages ==> r == totalPages
  {
    Min(currentPage + 1, totalPages)
  }

  predicate PrevDisabled(currentPage: int) {
    currentPage == 1
  }

  predicate NextDisabled(currentPage: int, totalPages: int) {
    currentPage == totalPages
  }

  /** The pagination bar is drawn only when there is more than one page. */
  predicate ShowPagination(totalPages: int) {
    totalPages > 1
  }

  /** The "..." marker is drawn only when some pages have no button. */
  predicate ShowEllipsis(totalPages: int) {
    totalPages > WindowWidth
  }

  /** The table's own state: the search box, the role filter (`None` before
      any selection) and the page. */
  datatype View = View(search: string, roleFilter: Option<string>, currentPage: int)

  const InitialView := View("", None, 1)

  datatype Event =
    | EditSearch(term: string)
    | SelectRole(role: string)
    | ClickPrev
    | ClickNext
    | ClickPage(page: int)

  /** The role sent to the server: `roleFilter?.value || ''`. */
  function RoleParam(v: View): (r: string)
    ensures v.roleFilter.None? ==> r == ""
    ensures v.roleFilter.Some? ==> r == v.roleFilter.value
  {
    StringOr(v.roleFilter, "")
  }

  /** One user interaction. A button that is not rendered or is disabled
      does nothing. Editing the search or choosing a role goes back to page
      1; paging never touches the filters; a page in `[1, totalPages]` stays
      in it. */
  function Step(v: View, totalPages: nat, e: Event): (r: View)
    ensures e.EditSearch? ==> r == View(e.term, v.roleFilter, 1)
    ensures e.SelectRole? ==> r == View(v.search, Some(e.role), 1)
    ensures !e.EditSearch? && !e.SelectRole? ==> r.search == v.search && r.roleFilter == v.roleFilter
    ensures e.ClickPrev? && ShowPagination(totalPages) && v.currentPage > 1 ==> r.currentPage == v.currentPage - 1
    ensures e.ClickNext? && ShowPagination(totalPages) && v.currentPage < totalPages ==> r.currentPage == v.currentPage + 1
    ensures e.ClickPrev? && PrevDisabled(v.currentPage) ==> r == v
    ensures e.ClickNext? && NextDisabled(v.currentPage, totalPages) ==> r == v
    ensures e.ClickPage? && ShowPagination(totalPages) && e.page in PageWindow(totalPages, v.currentPage) ==> r == v.(currentPage := e.page)
    ensures e.ClickPage? && !(ShowPagination(totalPages) && e.page in PageWindow(totalPages, v.currentPage)) ==> r == v
    ensures !e.EditSearch? && !e.SelectRole? && !ShowPagination(totalPages) ==> r == v
    ensures 1 <= v.currentPage <= totalPages ==> 1 <= r.currentPage <= totalPages
  {
    match e
    case EditSearch(term) => View(term, v.roleFilter, 1)
    case SelectRole(role) => View(v.search, Some(role), 1)
    case ClickPrev =>
      if ShowPagination(totalPages) && !PrevDisabled(v.currentPage)
      then v.(currentPage := PrevPage(v.currentPage)) else v
    case ClickNext =>
      if ShowPagination(totalPages) && !NextDisabled(v.currentPage, totalPages)
      then v.(currentPage := NextPage(v.currentPage, totalPages)) else v
    case ClickPage(p) =>
      if ShowPagination(totalPages) && p in PageWindow(totalPages, v.currentPage)
      then v.(currentPage := p) else v
  }

  /** What a table row offers for one user. */
  datatype RowControls = RowControls(shownRole: string, roleLocked: bool, deleteLocked: bool)

  /** A missing role shows as "tourist"; both the role selector and Delete
      are disabled exactly on admin rows. */
  function Row(u: User): (r: RowControls)
    ensures r.roleLocked <==> u.role == Some("admin")
    ensures r.deleteLocked <==> u.role == Some("admin")
    ensures !TruthyString(u.role) ==> r.shownRole == "tourist"
    ensures TruthyString(u.role) ==> r.shownRole == u.role.value
  {
    var locked := u.role == Some("admin");
    RowControls(StringOr(u.role, "tourist"), locked, locked)
  }

  /** A sequence of interactions against a fixed page count: the users do
      not change while the admin pages through them, and no filter edit
      changes the count. `RunRefetching` drops that simplification. */
  function Run(v: View, totalPages: nat, events: seq<Event>): View
    decreases |events|
  {
    if events == [] then v else Run(Step(v, totalPages, events[0]), totalPages, events[1..])
  }

  /** From any page in range, no sequence of clicks and filter edits leaves
      `[1, totalPages]` while there is at least one page. */
  lemma {:induction false} RunKeepsPageInRange(v: View, totalPages: nat, events: seq<Event>)
    requires 1 <= v.currentPage <= totalPages
    ensures 1 <= Run(v, totalPages, events).currentPage <= totalPages
    decreases |events|
  {
    if events != [] {
      RunKeepsPageInRange(Step(v, totalPages, events[0]), totalPages, events[1..]);
    }
  }

  /** Editing the search or choosing a role refetches the users. */
  predicate IsFilterEdit(e: Event) {
    e.EditSearch? || e.SelectRole?
  }

  /** An interaction together with the page count the table shows when it
      happens. */
  datatype Timed = Timed(event: Event, pages: nat)

  /** The page count changes only with the refetch a filter edit starts. */
  predicate CountsChangeOnlyOnEdits(steps: seq<Timed>) {
    forall k :: 1 <= k < |steps| && steps[k].pages != steps[k - 1].pages ==> IsFilterEdit(steps[k - 1].event)
  }

  /** A sequence of interactions, each against the page count of its time. */
  function RunRefetching(v: View, steps: seq<Timed>): View
    decreases |steps|
  {
    if steps == [] then v else RunRefetching(Step(v, steps[0].pages, steps[0].event), steps[1..])
  }

  /** The page is the first one or lies within the page count. */
  predicate PageFits(page: int, pages: nat) {
    page == 1 || 1 <= page <= pages
  }

  /** With the page count refetched after every filter edit, the page is
      always page 1 or a page of the current count: a filter edit returns
      to page 1 before the count changes, and paging respects the count. */
  lemma {:induction false} RefetchingKeepsPageInRange(v: View, steps: seq<Timed>)
    requires |steps| > 0 && CountsChangeOnlyOnEdits(steps)
    requires PageFits(v.currentPage, steps[0].pages)
    ensures PageFits(RunRefetching(v, steps).currentPage, steps[|steps| - 1].pages)
    decreases |steps|
  {
    var w := Step(v, steps[0].pages, steps[0].event);
    assert PageFits(w.currentPage, steps[0].pages);
    if |steps| > 1 {
      var rest := steps[1..];
      assert CountsChangeOnlyOnEdits(rest) by {
        forall k | 1 <= k < |rest| && rest[k].pages != rest[k - 1].pages
          ensures IsFilterEdit(rest[k - 1].event)
        {
          assert steps[k + 1].pages != steps[k].pages;
        }
      }
      assert PageFits(w.currentPage, rest[0].pages);
      RefetchingKeepsPageInRange(w, rest);
    }
  }
}

=== FILE: my_bookings.dfy ===
/** The tourist's "My Bookings" table: the pagination record, the
    "Showing X to Y of Z" line, Previous/Next, and the per-status badge and
    actions. */
module MyBookings {

  import opened Numeric

  /** The component's `pagination` state. */
  datatype Pagination = Pagination(current: int, pageSize: int, total: int)

  const InitialPagination := Pagination(1, 10, 0)

  /** The pagination states Previous/Next can lead to: page 1, or a later
      page that still starts inside the result set. */
  predicate Reachable(p: Pagination) {
    && p.pageSize > 0
    && p.current >= 1
    && (p.current == 1 || (p.current - 1) * p.pageSize < p.total)
  }

  /** The controls are shown only when the results do not fit on one page. */
  predicate ShowControls(p: Pagination) {
    p.total > p.pageSize
  }

  predicate PrevDisabled(p: Pagination) {
    p.current == 1
  }

  predicate NextDisabled(p: Pagination) {
    p.current * p.pageSize >= p.total
  }

  /** The numbers in "Showing `first` to `last` of `total` results". */
  datatype Range = Range(first: int, last: int)

  /** On a reachable page of a non-empty result set the range is a
      non-empty run of at most `pageSize` results inside `[1, total]`; it is
      exactly `pageSize` long unless it ends at the last result. */
  function ShowingRange(p: Pagination): (r: Range)
    ensures r.first == (p.current - 1) * p.pageSize + 1
    ensures r.last == Min(p.current * p.pageSize, p.total)
    ensures Reachable(p) && p.total > 0 ==> 1 <= r.first <= r.last <= p.total
    ensures Reachable(p) && p.total > 0 ==> r.last - r.first + 1 <= p.pageSize
    ensures Reachable(p) && r.last < p.total ==> r.last - r.first + 1 == p.pageSize
  {
    Range((p.current - 1) * p.pageSize + 1, Min(p.current * p.pageSize, p.total))
  }

  /** Consecutive pages show consecutive, non-overlapping ranges. */
  lemma RangesTile(p: Pagination)
    requires Reachable(p) && !NextDisabled(p)
    ensures ShowingRange(p.(current := p.current + 1)).first == ShowingRange(p).last + 1
  {
  }

  datatype Event = Previous | Next | Refresh(newTotal: int)

  /** One event. Previous and Next act only when the controls are shown and
      the button is enabled; a refresh replaces the total and nothing else. */
  function Step(p: Pagination, e: Event): (r: Pagination)
    ensures e.Refresh? ==> r.current == p.current && r.pageSize == p.pageSize && r.total == e.newTotal
    ensures !e.Refresh? ==> r.pageSize == p.pageSize && r.total == p.total
    ensures e.Previous? && PrevDisabled(p) ==> r == p
    ensures e.Next? && NextDisabled(p) ==> r == p
    ensures e.Previous? && ShowControls(p) && !PrevDisabled(p) ==> r == p.(current := p.current - 1)
    ensures e.Next? && ShowControls(p) && !NextDisabled(p) ==> r == p.(current := p.current + 1)
    ensures !e.Refresh? && !ShowControls(p) ==> r == p
    ensures !e.Refresh? && Reachable(p) ==> Reachable(r)
  {
    match e
    case Previous =>
      if ShowControls(p) && !PrevDisabled(p) then p.(current := p.current - 1) else p
    case Next =>
      if ShowControls(p) && !NextDisabled(p) then p.(current := p.current + 1) else p
    case Refresh(t) => p.(total := t)
  }

  /** A reachable page never lies beyond `ceil(total / pageSize)`. */
  lemma {:induction false} ReachableWithinPageCount(p: Pagination)
    requires Reachable(p) && p.total > 0
    ensures p.current <= CeilDiv(p.total, p.pageSize)
  {
    var pages := CeilDiv(p.total, p.pageSize);
    if p.current > pages {
      assert p.current - 1 >= pages;
      MulMonotone(pages, p.current - 1, p.pageSize);
      assert false;
    }
  }

  lemma MulMonotone(a: int, b: int, c: int)
    requires 0 <= a <= b && c >= 0
    ensures a * c <= b * c
  {
  }

  datatype BookingAction = Pay | Cancel | ViewDetails

  /** Pay and Cancel are offered only on pending bookings, View Details only
      on accepted ones, and nothing on any other status. */
  function Actions(status: string): (r: seq<BookingAction>)
    ensures Pay in r <==> status == "pending"
    ensures Cancel in r <==> status == "pending"
    ensures ViewDetails in r <==> status == "accepted"
    ensures r == [] <==> status != "pending" && status != "accepted"
  {
    if status == "pending" then [Pay, Cancel]
    else if status == "accepted" then [ViewDetails]
    else []
  }

  datatype Badge = Badge(style: string, text: string)

  const GreyStyle := "bg-gray-100 text-gray-800"

  const StatusStyles: map<string, string> := map[
    "pending" := "bg-yellow-100 text-yellow-800",
    "in review" := "bg-blue-100 text-blue-800",
    "accepted" := "bg-green-100 text-green-800",
    "rejected" := "bg-red-100 text-red-800"]

  const StatusTexts: map<string, string> := map[
    "pending" := "Pending",
    "in review" := "In Review",
    "accepted" := "Accepted",
    "rejected" := "Rejected"]

  /** The four known statuses get their own colour and a capitalised label;
      any other status is echoed unchanged in grey. */
  function StatusBadge(status: string): (r: Badge)
    ensures status == "pending" ==> r == Badge("bg-yellow-100 text-yellow-800", "Pending")
    ensures status == "in review" ==> r == Badge("bg-blue-100 text-blue-800", "In Review")
    ensures status == "accepted" ==> r == Badge("bg-green-100 text-green-800", "Accepted")
    ensures status == "rejected" ==> r == Badge("bg-red-100 text-red-800", "Rejected")
    ensures r.style == GreyStyle <==> status !in StatusTexts
    ensures status !in StatusTexts ==> r.text == status
  {
    Badge(
      if status in StatusStyles then StatusStyles[status] else GreyStyle,
      if status in StatusTexts then StatusTexts[status] else status)
  }
}

=== FILE: numeric.dfy ===
/** Integer helpers standing for `Math.min`, `Math.max`, `Math.ceil(a / b)`
    and JavaScript's remainder operator. */
module Numeric {

  function Min(a: int, b: int): (r: int)
    ensures r <= a && r <= b
    ensures r == a || r == b
  {
    if a <= b then a else b
  }

  function Max(a: int, b: int): (r: int)
    ensures r >= a && r >= b
    ensures r == a || r == b
  {
    if a >= b then a else b
  }

  /** `Math.ceil(a / b)` for a non-negative numerator and positive divisor:
      the least number of size-`b` pages that hold `a` items. */
  function CeilDiv(a: nat, b: nat): (r: nat)
    requires b > 0
    ensures r * b >= a
    ensures r > 0 ==> (r - 1) * b < a
    ensures r == 0 <==> a == 0
  {
    (a + b - 1) / b
  }

  /** JavaScript's `a % b`: the remainder of division truncated toward zero,
      so it takes the sign of the dividend (unlike Dafny's `%`). */
  function JsRem(a: int, b: int): (r: int)
    requires b != 0
    ensures a >= 0 ==> 0 <= r < (if b > 0 then b else -b)
    ensures a <= 0 ==> -(if b > 0 then b else -b) < r <= 0
  {
    var m := if b > 0 then b else -b;
    if a >= 0 then a % m else -((-a) % m)
  }

  /** For a non-negative dividend and positive divisor the two remainders agree. */
  lemma JsRemAgreesOnNaturals(a: int, b: int)
    requires a >= 0 && b > 0
    ensures JsRem(a, b) == a % b
  {
  }

  /** JavaScript's remainder differs from Dafny's on a negative dividend. */
  lemma JsRemNegativeDividend()
    ensures JsRem(-1, 3) == -1 && (-1) % 3 == 2
  {
  }

  /** Euclidean division is unique: a quotient/remainder pair with the
      remainder in `[0, n)` is the one `/` and `%` compute. */
  lemma ModUnique(a: int, n: int, q: int, r: int)
    requires n > 0 && 0 <= r < n && a == q * n + r
    ensures a % n == r
  {
    var q', r' := a / n, a % n;
    assert a == q' * n + r';
    if q > q' {
      MulAtLeast(q - q', n);
      assert false;
    } else if q < q' {
      MulAtLeast(q' - q, n);
      assert false;
    }
  }

  lemma MulAtLeast(k: int, n: int)
    requires k >= 1 && n > 0
    ensures k * n >= n
  {
  }

  /** Adding one to a number steps its remainder on, wrapping to 0. */
  lemma ModSucc(a: nat, n: nat)
    requires n > 0
    ensures (a + 1) % n == (if a % n == n - 1 then 0 else a % n + 1)
  {
    var q := a / n;
    assert a == q * n + a % n;
    if a % n == n - 1 {
      ModUnique(a + 1, n, q + 1, 0);
    } else {
      ModUnique(a + 1, n, q, a % n + 1);
    }
  }
}

=== FILE: optional.dfy ===
/** Optional values and the JavaScript notion of "truthy" that the components
    rely on whenever they write `a || b` or `a && b` over a value that may be
    absent. */
module Optional {

  /** A value that may be absent (`undefined` or `null` in the source). */
  datatype Option<+T> = None | Some(value: T) {

    /** The carried value, or `default` when absent. */
    function GetOr(default: T): T {
      match this
      case Some(v) => v
      case None => default
    }
  }

  /** An optional string is truthy when present and non-empty. */
  predicate TruthyString(s: Option<string>) {
    s.Some? && s.value != ""
  }

  /** An optional number is truthy when present and non-zero. */
  predicate TruthyNumber(x: Option<real>) {
    x.Some? && x.value != 0.0
  }

  /** `s || fallback` for an optional string. */
  function StringOr(s: Option<string>, fallback: string): (r: string)
    ensures TruthyString(s) ==> r == s.value
    ensures !TruthyString(s) ==> r == fallback
    ensures r == fallback || Some(r) == s
  {
    if TruthyString(s) then s.value else fallback
  }

  /** `x || fallback` for an optional number. */
  function NumberOr(x: Option<real>, fallback: real): (r: real)
    ensures TruthyNumber(x) ==> r == x.value
    ensures !TruthyNumber(x) ==> r == fallback
  {
    if TruthyNumber(x) then x.value else fallback
  }
}

=== FILE: package_card.dfy ===
/** A tour package card on the home page: the sale badge and price line,
    the duration line, the star row and the details link. Prices and
    ratings are the numbers the card reads. */
module PackageCard {

  import opened Optional

  datatype Package = Package(
    id: string,
    title: string,
    price: real,
    oldPrice: Option<real>,
    days: int,
    rating: Option<real>)

  /** `oldPrice && Number(oldPrice) > Number(price)`: a missing or zero old
      price never counts as a discount. */
  predicate HasDiscount(p: Package) {
    TruthyNumber(p.oldPrice) && p.oldPrice.value > p.price
  }

  /** For a non-negative price this is simply "an old price above the
      price": a zero old price could only be above a negative price. */
  lemma DiscountIffHigherOldPrice(p: Package)
    requires p.price >= 0.0
    ensures HasDiscount(p) <==> p.oldPrice.Some? && p.oldPrice.value > p.price
  {
  }

  /** The price area: the SALE badge, the currency label, the price, and the
      struck-through old price. */
  datatype PriceTag = PriceTag(saleBadge: bool, currency: string, amount: real, struck: Option<real>)

  /** A discounted card shows SALE, `$price` and the old price struck
      through; any other card shows only `Tk:price`. */
  function PriceArea(p: Package): (t: PriceTag)
    ensures t.amount == p.price
    ensures t.saleBadge <==> HasDiscount(p)
    ensures t.struck.Some? <==> HasDiscount(p)
    ensures t.struck.Some? ==> t.struck.value > t.amount && Some(t.struck.value) == p.oldPrice
    ensures t.currency == (if HasDiscount(p) then "$" else "Tk:")
  {
    if HasDiscount(p) then PriceTag(true, "$", p.price, p.oldPrice)
    else PriceTag(false, "Tk:", p.price, None)
  }

  /** The duration line's two numbers: days, and one night fewer. */
  datatype Duration = Duration(days: int, nights: int)

  function DurationOf(p: Package): (d: Duration)
    ensures d.days == p.days && d.nights + 1 == d.days
    ensures p.days >= 1 ==> d.nights >= 0
  {
    Duration(p.days, p.days - 1)
  }

  /** `rating = 5` in the destructuring: only a missing rating gets the
      default, so a rating of zero stays zero. */
  function RatingOf(p: Package): (r: real)
    ensures p.rating.None? ==> r == 5.0
    ensures p.rating.Some? ==> r == p.rating.value
  {
    p.rating.GetOr(5.0)
  }

  const StarCount: nat := 5

  /** The star row: always five filled stars. */
  function Stars(p: Package): (s: seq<bool>)
    ensures |s| == StarCount
    ensures forall k :: 0 <= k < |s| ==> s[k]
  {
    seq(StarCount, _ => true)
  }

  /** The rating, defaulted or not, does not change the stars shown. */
  lemma StarsIgnoreRating(p: Package, q: Package)
    ensures Stars(p) == Stars(q)
  {
  }

  const DetailsPrefix := "/packages/"

  /** The "VIEW MORE" link. */
  function DetailsPath(p: Package): (path: string)
    ensures |path| == |DetailsPrefix| + |p.id|
    ensures path[..|DetailsPrefix|] == DetailsPrefix && path[|DetailsPrefix|..] == p.id
  {
    DetailsPrefix + p.id
  }

  /** Different packages link to different pages. */
  lemma DetailsPathInjective(p: Package, q: Package)
    requires DetailsPath(p) == DetailsPath(q)
    ensures p.id == q.id
  {
    assert DetailsPath(p)[|DetailsPrefix|..] == p.id;
  }
}

=== FILE: private_route.dfy ===
/** The guard around signed-in pages: a spinner while the auth state loads,
    a redirect to the sign-in page for visitors, the page itself for users.

    The redirect records the requested path in the router state under the
    key "form", while the sign-in and registration pages read it back
    under "from". The guard is modelled as written and as intended. */
module PrivateRoute {

  import opened Optional
  import opened RouteState
  import Login

  /** What the guard renders. */
  datatype Render = Spinner | Redirect(to: string, state: map<string, string>) | Children

  const KeyAsWritten := "form"
  const KeyRead := "from"

  /** The guard, recording the requested path under `key`. */
  function GuardWith(key: string, loading: bool, signedIn: bool, path: string): (r: Render)
    ensures loading <==> r.Spinner?
    ensures r.Children? <==> !loading && signedIn
    ensures r.Redirect? <==> !loading && !signedIn
    ensures r.Redirect? ==> r.to == "/login" && r.state == map[key := path]
  {
    if loading then Spinner
    else if !signedIn then Redirect("/login", map[key := path])
    else Children
  }

  /** The guard as written. */
  function GuardAsWritten(loading: bool, signedIn: bool, path: string): (r: Render)
    ensures r.Redirect? ==> KeyRead !in r.state
    ensures r == GuardWith(KeyAsWritten, loading, signedIn, path)
  {
    GuardWith(KeyAsWritten, loading, signedIn, path)
  }

  /** The guard as intended: the path goes under the key the sign-in page
      reads. */
  function Guard(loading: bool, signedIn: bool, path: string): (r: Render)
    ensures r.Redirect? ==> StateValue(Some(r.state), KeyRead) == Some(path)
    ensures r == GuardWith(KeyRead, loading, signedIn, path)
  {
    GuardWith(KeyRead, loading, signedIn, path)
  }

  /** As written, signing in after a redirect always lands on the home
      page, whatever page the visitor asked for. */
  lemma RedirectLosesPath(path: string)
    ensures var r := GuardAsWritten(false, false, path);
      r.Redirect? && RedirectTarget(Some(r.state)) == "/"
  {
  }

  /** As intended, signing in after a redirect returns to the page the
      visitor asked for (a router path is never empty). */
  lemma RedirectReturnsToPath(path: string)
    requires path != ""
    ensures var r := Guard(false, false, path);
      r.Redirect? && RedirectTarget(Some(r.state)) == path
  {
  }

  /** The whole trip through the sign-in page: a visitor stopped at `path`
      who then signs in successfully is sent to `path` by the intended
      guard and to "/" by the written one. */
  lemma SignInAfterRedirect(p: Login.Page, email: string, password: string, path: string)
    requires Login.EmailError(email).None? && Login.PasswordError(password).None? && !p.loading
    requires path != ""
    ensures var o := Login.Submit(p, email, password, Some(Guard(false, false, path).state), Login.SignedIn);
      o.Some? && o.value.navigateTo == Some(path)
    ensures var o := Login.Submit(p, email, password, Some(GuardAsWritten(false, false, path).state), Login.SignedIn);
      o.Some? && o.value.navigateTo == Some("/")
  {
  }
}

=== FILE: projects_carousel.dfy ===
/** The image carousel on each project card of the About page: a timer
    advances the picture, wrapping after the last, and a row of dots
    selects one directly. The picture on show is the one at the current
    index; all others are transparent. */
module ProjectsCarousel {

  import opened Numeric

  /** The timer's step for a card with `count` images. */
  function Advance(index: int, count: nat): (r: int)
    ensures 0 <= index < count ==> 0 <= r < count
    ensures index == count - 1 ==> r == 0
    ensures index != count - 1 ==> r == index + 1
  {
    if index == count - 1 then 0 else index + 1
  }

  /** `k` timer steps. */
  function AdvanceTimes(index: int, count: nat, k: nat): int {
    if k == 0 then index else Advance(AdvanceTimes(index, count, k - 1), count)
  }

  /** `k` steps move `k` pictures on, modulo the count. */
  lemma {:induction false} AdvanceTimesWraps(index: int, count: nat, k: nat)
    requires 0 <= index < count
    ensures AdvanceTimes(index, count, k) == (index + k) % count
  {
    if k > 0 {
      AdvanceTimesWraps(index, count, k - 1);
      ModSucc(index + k - 1, count);
    }
  }

  /** One step per picture comes back to the picture shown first. */
  lemma FullCycle(index: int, count: nat)
    requires 0 <= index < count
    ensures AdvanceTimes(index, count, count) == index
  {
    AdvanceTimesWraps(index, count, count);
    ModUnique(index + count, count, 1, index);
  }

  /** A timer tick, or a click on the `i`-th dot. */
  datatype Event = Tick | Dot(i: int)

  /** The card's index after one event; the dots are drawn one per image,
      so only their indices can be clicked. */
  function Step(index: int, count: nat, e: Event): (r: int)
    requires e.Dot? ==> 0 <= e.i < count
    ensures 0 <= index < count ==> 0 <= r < count
    ensures e.Dot? ==> r == e.i
  {
    match e
    case Tick => Advance(index, count)
    case Dot(i) => i
  }

  predicate DotsDrawn(events: seq<Event>, count: nat) {
    forall k :: 0 <= k < |events| && events[k].Dot? ==> 0 <= events[k].i < count
  }

  function Run(index: int, count: nat, events: seq<Event>): int
    requires DotsDrawn(events, count)
    decreases |events|
  {
    if events == [] then index else Run(Step(index, count, events[0]), count, events[1..])
  }

  /** Starting from the first picture, the index always names a picture. */
  lemma {:induction false} RunStaysInRange(index: int, count: nat, events: seq<Event>)
    requires 0 <= index < count && DotsDrawn(events, count)
    ensures 0 <= Run(index, count, events) < count
    decreases |events|
  {
    if events != [] {
      RunStaysInRange(Step(index, count, events[0]), count, events[1..]);
    }
  }

  /** The opacity class of the `idx`-th picture. */
  function Opacity(idx: int, index: int): (c: string)
    ensures c == "opacity-100" <==> idx == index
    ensures c != "opacity-100" ==> c == "opacity-0"
  {
    if idx == index then "opacity-100" else "opacity-0"
  }

  /** With the index in range exactly one picture is opaque: the current one. */
  lemma ExactlyOneOpaque(index: int, count: nat)
    requires 0 <= index < count
    ensures (set idx | 0 <= idx < count && Opacity(idx, index) == "opacity-100") == {index}
  {
  }
}

=== FILE: registration.dfy ===
/** The registration page: the form's field rules, the profile-picture
    upload, the submit guard and the user record it posts. */
module Registration {

  import opened Optional
  import opened JsText
  import opened RouteState

  const NameMinLength: nat := 5
  const PasswordMinLength: nat := 6

  /** The name rule: required, then at least five characters. */
  function NameError(name: string): (e: Option<string>)
    ensures e.None? <==> Length(name) >= NameMinLength
    ensures name == "" ==> e == Some("Name is required")
    ensures name != "" && Length(name) < NameMinLength ==> e == Some("Name must be at least 5 characters")
  {
    if name == "" then Some("Name is required")
    else if Length(name) < NameMinLength then Some("Name must be at least 5 characters")
    else None
  }

  /** The rule counts UTF-16 code units, as `.length` does: two emoji and
      two letters make a long enough name, though only four characters. */
  lemma NameCountsCodeUnits()
    ensures |"\U{1F600}\U{1F600}ab"| == 4 && NameError("\U{1F600}\U{1F600}ab").None?
  {
    var s := "\U{1F600}\U{1F600}ab";
    assert s[..3] == "\U{1F600}\U{1F600}a";
    LengthAppend("\U{1F600}\U{1F600}a", "b");
    SurrogatePairsCountTwice();
  }

  /** A character allowed in each part of a registration email: anything
      but whitespace and '@'. */
  predicate EmailPartChar(c: char) {
    !IsSpace(c) && c != '@'
  }

  /** `s` splits as `local '@' domain '.' suffix`, the '@' at `at` and the
      '.' at `dot`, with all three parts non-empty and free of whitespace
      and '@' (the domain may itself contain dots). */
  predicate EmailSplit(s: string, at: int, dot: int) {
    && 0 < at && at + 1 < dot && dot + 1 < |s|
    && s[at] == '@' && s[dot] == '.'
    && forall k :: 0 <= k < |s| && k != at ==> EmailPartChar(s[k])
  }

  /** The registration email pattern `[^\s@]+@[^\s@]+\.[^\s@]+`, anchored:
      some split of the text fits. */
  ghost predicate EmailPattern(s: string) {
    exists at, dot :: EmailSplit(s, at, dot)
  }

  /** A direct check of the pattern: no whitespace anywhere, exactly one
      '@', not first, and a '.' strictly inside the text after it, neither
      right after the '@' nor last. */
  predicate EmailCheck(s: string) {
    var at := IndexOf(s, '@');
    && at > 0
    && (forall k :: 0 <= k < |s| ==> !IsSpace(s[k]))
    && (forall k :: at < k < |s| ==> s[k] != '@')
    && at + 3 < |s|
    && IndexOf(s[at + 2..|s| - 1], '.') >= 0
  }

  /** The direct check accepts exactly the texts the pattern matches. */
  lemma EmailCheckMatchesPattern(s: string)
    ensures EmailCheck(s) <==> EmailPattern(s)
  {
    if EmailCheck(s) {
      var at := IndexOf(s, '@');
      var dot := at + 2 + IndexOf(s[at + 2..|s| - 1], '.');
      assert EmailSplit(s, at, dot);
    }
    if EmailPattern(s) {
      var at, dot :| EmailSplit(s, at, dot);
      assert s[at + 2..|s| - 1][dot - at - 2] == '.';
    }
  }

  /** The email rule: required, then the pattern. */
  function EmailError(email: string): (e: Option<string>)
    ensures e.None? <==> email != "" && EmailPattern(email)
    ensures email == "" ==> e == Some("Email is required")
    ensures email != "" && !EmailPattern(email) ==> e == Some("Please enter a valid email")
  {
    EmailCheckMatchesPattern(email);
    if email == "" then Some("Email is required")
    else if !EmailCheck(email) then Some("Please enter a valid email")
    else None
  }

  predicate HasUpper(s: string) {
    exists k :: 0 <= k < |s| && IsAsciiUpper(s[k])
  }

  predicate HasLower(s: string) {
    exists k :: 0 <= k < |s| && IsAsciiLower(s[k])
  }

  predicate HasDigit(s: string) {
    exists k :: 0 <= k < |s| && IsDigit(s[k])
  }

  /** The password rule: required, at least six characters, then an
      upper-case letter, a lower-case letter and a digit, reported in that
      order, the first failing rule's message only. */
  function PasswordError(password: string): (e: Option<string>)
    ensures e.None? <==>
      Length(password) >= PasswordMinLength && HasUpper(password) && HasLower(password) && HasDigit(password)
    ensures password == "" ==> e == Some("Password is required")
    ensures password != "" && Length(password) < PasswordMinLength ==> e == Some("Password must be at least 6 characters")
    ensures Length(password) >= PasswordMinLength && !HasUpper(password) ==>
      e == Some("Must include at least one uppercase letter")
    ensures Length(password) >= PasswordMinLength && HasUpper(password) && !HasLower(password) ==>
      e == Some("Must include at least one lowercase letter")
    ensures Length(password) >= PasswordMinLength && HasUpper(password) && HasLower(password) && !HasDigit(password) ==>
      e == Some("Must include at least one number")
  {
    if password == "" then Some("Password is required")
    else if Length(password) < PasswordMinLength then Some("Password must be at least 6 characters")
    else if !HasUpper(password) then Some("Must include at least one uppercase letter")
    else if !HasLower(password) then Some("Must include at least one lowercase letter")
    else if !HasDigit(password) then Some("Must include at least one number")
    else None
  }

  datatype Fields = Fields(name: string, email: string, password: string)

  /** The form passes its field rules, so the submit handler runs. */
  predicate FieldsValid(f: Fields) {
    NameError(f.name).None? && EmailError(f.email).None? && PasswordError(f.password).None?
  }

  /** The page's own state: the uploaded picture's URL, the manual error on
      the picture, and the loading flag. */
  datatype Page = Page(profilePic: Option<string>, imageError: Option<string>, loading: bool)

  const InitialPage := Page(None, None, false)

  /** What choosing a picture led to: no file, an upload that returned a
      URL, or an upload that failed (an unsuccessful answer or an error). */
  datatype Upload = NoFile | Uploaded(url: string) | UploadFailed

  /** The file input's handler. Only a successful upload changes the
      picture, and it also clears the picture's error. */
  function HandleImageUpload(p: Page, u: Upload): (r: Page)
    ensures u.NoFile? ==> r == p.(imageError := Some("Please select an image"))
    ensures u.Uploaded? ==> r == p.(profilePic := Some(u.url), imageError := None)
    ensures u.UploadFailed? ==> r == p.(imageError := Some("Image upload failed"))
    ensures !u.Uploaded? ==> r.profilePic == p.profilePic
  {
    match u
    case NoFile => p.(imageError := Some("Please select an image"))
    case Uploaded(url) => p.(profilePic := Some(url), imageError := None)
    case UploadFailed => p.(imageError := Some("Image upload failed"))
  }

  /** The record posted to `/users`; both timestamps are the submit time. */
  datatype UserInfo = UserInfo(name: string, email: string, image: string, role: string, createdAt: string, lastLogIn: string)

  /** What a submission did. */
  datatype Outcome = Outcome(page: Page, posted: Option<UserInfo>, navigateTo: Option<string>)

  /** The submit button is disabled while a registration is pending, so
      a submission can start only from an idle page. */
  predicate Idle(p: Page) {
    !p.loading
  }

  /** The form library's submit handler runs `onSubmit` only when no error
      stands. The field rules are checked afresh, but the picture input is
      not registered with the library, so an error set on it by hand stays
      until a successful upload clears it and blocks every submission
      until then. */
  predicate HandlerRuns(p: Page, f: Fields) {
    Idle(p) && FieldsValid(f) && p.imageError.None?
  }

  /** Submitting the form. Nothing happens unless the handler runs.
      Without an uploaded picture the picture error is set and nothing is
      posted. Otherwise the record with role "tourist" and the uploaded
      picture is posted; the page then goes to the redirect target only if
      both the post and the profile update succeed; loading ends false
      either way. */
  function Submit(p: Page, f: Fields, st: LocationState, now: string, postOk: bool, profileOk: bool): (o: Outcome)
    ensures !HandlerRuns(p, f) ==> o == Outcome(p, None, None)
    ensures HandlerRuns(p, f) && !TruthyString(p.profilePic) ==>
      o.posted.None? && o.navigateTo.None? && o.page == p.(imageError := Some("Profile picture is required"))
    ensures o.posted.Some? <==> HandlerRuns(p, f) && TruthyString(p.profilePic)
    ensures o.posted.Some? ==>
      o.posted.value == UserInfo(f.name, f.email, p.profilePic.value, "tourist", now, now)
    ensures o.navigateTo.Some? <==> o.posted.Some? && postOk && profileOk
    ensures o.navigateTo.Some? ==> o.navigateTo.value == RedirectTarget(st)
    ensures o.posted.Some? ==> o.page == p.(imageError := None, loading := false)
  {
    if !HandlerRuns(p, f) then Outcome(p, None, None)
    else if !TruthyString(p.profilePic) then
      Outcome(p.(imageError := Some("Profile picture is required")), None, None)
    else
      var info := UserInfo(f.name, f.email, p.profilePic.value, "tourist", now, now);
      Outcome(
        p.(imageError := None, loading := false),
        Some(info),
        if postOk && profileOk then Some(RedirectTarget(st)) else None)
  }

  /** A failed upload after a successful one leaves the earlier picture in
      place but blocks registration: nothing is posted until an upload
      succeeds again, and then the new picture is what is posted. */
  lemma FailedUploadBlocksSubmit(p: Page, u: Upload, url: string, f: Fields, st: LocationState, now: string, postOk: bool, profileOk: bool)
    requires !u.Uploaded? && url != "" && Idle(p) && FieldsValid(f)
    ensures var failed := HandleImageUpload(p, u);
      && Submit(failed, f, st, now, postOk, profileOk) == Outcome(failed, None, None)
      && Submit(HandleImageUpload(failed, Uploaded(url)), f, st, now, postOk, profileOk).posted.value.image == url
  {
  }

  /** Submitting without a picture sets an error that makes every further
      submission inert until a picture is uploaded. */
  lemma MissingPictureBlocksResubmit(p: Page, f: Fields, st: LocationState, now: string, postOk: bool, profileOk: bool)
    requires HandlerRuns(p, f) && p.profilePic.None?
    ensures var first := Submit(p, f, st, now, postOk, profileOk).page;
      && first.imageError == Some("Profile picture is required")
      && Submit(first, f, st, now, postOk, profileOk) == Outcome(first, None, None)
  {
  }

  /** A picture uploaded successfully is what the posted record carries. */
  lemma UploadedPictureIsPosted(p: Page, url: string, f: Fields, st: LocationState, now: string, postOk: bool, profileOk: bool)
    requires url != "" && Idle(p) && FieldsValid(f)
    ensures Submit(HandleImageUpload(p, Uploaded(url)), f, st, now, postOk, profileOk).posted.value.image == url
  {
  }
}

=== FILE: route_state.dfy ===
/** The router's `location.state` as the sign-in pages read it. */
module RouteState {

  import opened Optional

  /** `location.state`: absent, or an object with string-valued keys. */
  type LocationState = Option<map<string, string>>

  /** `location?.state?.[key]`. */
  function StateValue(st: LocationState, key: string): (r: Option<string>)
    ensures r.Some? <==> st.Some? && key in st.value
    ensures r.Some? ==> r.value == st.value[key]
  {
    if st.Some? && key in st.value then Some(st.value[key]) else None
  }

  /** `location?.state?.from || "/"`: where a successful sign-in or
      registration goes. */
  function RedirectTarget(st: LocationState): (r: string)
    ensures TruthyString(StateValue(st, "from")) ==> r == st.value["from"]
    ensures !TruthyString(StateValue(st, "from")) ==> r == "/"
    ensures r != ""
  {
    StringOr(StateValue(st, "from"), "/")
  }

  /** A state recorded under the key "from" sends the user back to it. */
  lemma RedirectReturnsToFrom(path: string)
    requires path != ""
    ensures RedirectTarget(Some(map["from" := path])) == path
  {
  }
}

=== FILE: secure_api.dfy ===
/** The authenticated API client: the bearer header every request gets, and
    the response interceptor's reaction to failed requests (403 sends the
    user to the forbidden page, 401 signs out and sends them to sign-in).

    The hook reads the sign-out function from the auth context under the
    name `logout`, while the provider publishes it as `logOut`. The handler
    is therefore modelled twice: as written, where the name lookup fails,
    and as intended, where it finds the provider's function. */
module SecureApi {

  import opened Optional

  /** The names the auth provider publishes in its context value. */
  const ProvidedNames: set<string> :=
    {"user", "loading", "createUser", "login", "logOut", "signInWithGoogle", "updateUserProfile"}

  /** The name the hook destructures the sign-out function from. */
  const NameReadByHook := "logout"

  /** The name the provider publishes the sign-out function under. */
  const NamePublished := "logOut"

  const BearerPrefix := "Bearer "

  /** The request interceptor: sets `Authorization` to `Bearer <token>` and
      keeps every other header. Without a signed-in user, reading the token
      throws and the request is rejected (`None`). */
  function Authorize(headers: map<string, string>, accessToken: Option<string>): (r: Option<map<string, string>>)
    ensures r.Some? <==> accessToken.Some?
    ensures r.Some? ==>
      && "Authorization" in r.value
      && |r.value["Authorization"]| == |BearerPrefix| + |accessToken.value|
      && r.value["Authorization"][..|BearerPrefix|] == BearerPrefix
      && r.value["Authorization"][|BearerPrefix|..] == accessToken.value
    ensures r.Some? ==> forall h :: h != "Authorization" ==> (h in r.value <==> h in headers)
    ensures r.Some? ==> forall h :: h in headers && h != "Authorization" ==> r.value[h] == headers[h]
  {
    match accessToken
    case None => None
    case Some(token) => Some(headers["Authorization" := BearerPrefix + token])
  }

  /** The server can read the token back from the header it receives. */
  lemma TokenRecoverable(headers: map<string, string>, a: string, b: string)
    requires Authorize(headers, Some(a)).value["Authorization"]
          == Authorize(headers, Some(b)).value["Authorization"]
    ensures a == b
  {
    var ha := Authorize(headers, Some(a)).value["Authorization"];
    assert ha[|BearerPrefix|..] == a;
  }

  /** A failed request as the interceptor sees it; `status` is absent when
      no response arrived. */
  datatype HttpError = HttpError(status: Option<int>)

  /** Why the request's promise rejects: the original error, or a
      `TypeError` thrown inside the handler itself. */
  datatype Rejection = Original(error: HttpError) | TypeError

  /** What the error handler did: whether it started signing out, where it
      navigated (after sign-out settles, for 401), and the rejection the
      caller sees. */
  datatype Reaction = Reaction(signOutStarted: bool, navigateTo: Option<string>, rejection: Rejection)

  /** The error handler, given whether the sign-out function was found in
      the context and how the sign-out call settles. Calling a missing
      function throws, which skips the final `Promise.reject(error)`. */
  function OnErrorWith(e: HttpError, signOutFound: bool, signOutOk: bool): (r: Reaction)
    ensures e.status == Some(403) ==> r == Reaction(false, Some("/forbidden"), Original(e))
    ensures e.status != Some(403) && e.status != Some(401) ==> r == Reaction(false, None, Original(e))
    ensures e.status == Some(401) && !signOutFound ==> r == Reaction(false, None, TypeError)
    ensures e.status == Some(401) && signOutFound ==> r.signOutStarted && r.rejection == Original(e)
    ensures e.status == Some(401) && signOutFound ==> r.navigateTo == (if signOutOk then Some("/login") else None)
    ensures r.navigateTo.Some? ==> r.navigateTo.value in {"/forbidden", "/login"}
  {
    if e.status == Some(403) then Reaction(false, Some("/forbidden"), Original(e))
    else if e.status == Some(401) then
      if !signOutFound then Reaction(false, None, TypeError)
      else Reaction(true, if signOutOk then Some("/login") else None, Original(e))
    else Reaction(false, None, Original(e))
  }

  /** The handler as written: it looks the sign-out function up under the
      name the provider does not publish. */
  function OnErrorAsWritten(e: HttpError, signOutOk: bool): (r: Reaction)
    ensures e.status == Some(401) ==> r == Reaction(false, None, TypeError)
    ensures e.status != Some(401) ==> r == OnErrorWith(e, true, signOutOk)
  {
    OnErrorWith(e, NameReadByHook in ProvidedNames, signOutOk)
  }

  /** The handler as intended: the provider's sign-out function is found. */
  function OnError(e: HttpError, signOutOk: bool): (r: Reaction)
    ensures r.rejection == Original(e)
    ensures r.signOutStarted <==> e.status == Some(401)
    ensures e.status == Some(401) ==> r.navigateTo == (if signOutOk then Some("/login") else None)
    ensures e.status == Some(403) ==> r.navigateTo == Some("/forbidden")
    ensures e.status != Some(401) && e.status != Some(403) ==> r.navigateTo.None?
  {
    OnErrorWith(e, NamePublished in ProvidedNames, signOutOk)
  }

  /** The written handler never signs out: an expired session (401) neither
      ends the sign-in nor reaches the sign-in page, even when signing out
      would have succeeded, and the caller sees a `TypeError` rather than
      the 401. */
  lemma ExpiredSessionNotSignedOut()
    ensures var e := HttpError(Some(401));
      && OnErrorAsWritten(e, true) == Reaction(false, None, TypeError)
      && OnError(e, true) == Reaction(true, Some("/login"), Original(e))
  {
  }

  /** Apart from 401 the written and the intended handler agree. */
  lemma AsWrittenAgreesBesides401(e: HttpError, signOutOk: bool)
    requires e.status != Some(401)
    ensures OnErrorAsWritten(e, signOutOk) == OnError(e, signOutOk)
  {
  }

  /** A request's result before the interceptor. */
  datatype Response = Response(status: int, data: string)
  datatype Raw = Succeeded(response: Response) | Errored(error: HttpError)

  /** The result the caller sees, with the handler's side effects. */
  datatype Delivered = Resolved(response: Response) | Rejected(reaction: Reaction)

  /** The response interceptor, as intended: successes pass through
      unchanged and every error is rejected again with the same error. */
  function Intercept(raw: Raw, signOutOk: bool): (d: Delivered)
    ensures raw.Succeeded? <==> d.Resolved?
    ensures raw.Succeeded? ==> d.response == raw.response
    ensures raw.Errored? ==> d.reaction.rejection == Original(raw.error)
  {
    match raw
    case Succeeded(res) => Resolved(res)
    case Errored(e) => Rejected(OnError(e, signOutOk))
  }
}

=== FILE: story_card.dfy ===
/** A story card in the tourist's dashboard: the image grid chosen by the
    number of images, with a "+k" overlay for the images that do not fit,
    and the delete flow. */
module StoryCard {

  import opened Optional
  import opened Numeric

  /** How many tiles fit in the grid. */
  const MaxTiles: nat := 4

  /** The grid arrangements, one per image count up to four and one for
      five or more. */
  datatype Layout = Placeholder | Single | Pair | Trio | Quad | Mosaic

  /** The "+k" badge laid over one tile. */
  datatype Overlay = Overlay(tileIndex: nat, more: nat)

  datatype Grid = Grid(layout: Layout, tiles: seq<string>, overlay: Option<Overlay>)

  /** `story.images?.length || 0`, as the list the grid reads from. */
  function StoryImages(images: Option<seq<string>>): seq<string> {
    images.GetOr([])
  }

  /** The grid for a story's images. No images gives the "No images"
      placeholder and no tile; otherwise the first `min(n, 4)` images are
      tiled in order, and from five images on the fourth tile carries a
      "+(n - 4)" overlay. */
  function ImageGrid(images: Option<seq<string>>): (g: Grid)
    ensures var n := |StoryImages(images)|;
      (g.layout == Placeholder <==> n == 0)
      && (n == 1 <==> g.layout == Single)
      && (n == 2 <==> g.layout == Pair)
      && (n == 3 <==> g.layout == Trio)
      && (n == 4 <==> g.layout == Quad)
      && (n >= 5 <==> g.layout == Mosaic)
    ensures |g.tiles| == Min(|StoryImages(images)|, MaxTiles)
    ensures g.tiles == StoryImages(images)[..|g.tiles|]
    ensures g.overlay.Some? <==> |StoryImages(images)| > MaxTiles
    ensures g.overlay.Some? ==>
      g.overlay.value.tileIndex == MaxTiles - 1 && g.overlay.value.tileIndex < |g.tiles|
      && g.overlay.value.more == |StoryImages(images)| - MaxTiles && g.overlay.value.more >= 1
  {
    var imgs := StoryImages(images);
    var n := |imgs|;
    if n == 0 then Grid(Placeholder, [], None)
    else if n == 1 then Grid(Single, [imgs[0]], None)
    else if n == 2 then Grid(Pair, imgs[..2], None)
    else if n == 3 then Grid(Trio, [imgs[0], imgs[1], imgs[2]], None)
    else if n == 4 then Grid(Quad, imgs[..4], None)
    else Grid(Mosaic, imgs[..4], Some(Overlay(3, n - 4)))
  }

  /** The images the card accounts for: its tiles plus the overlay's count. */
  function Accounted(g: Grid): nat {
    |g.tiles| + (if g.overlay.Some? then g.overlay.value.more else 0)
  }

  /** Every image is either tiled or counted in the overlay, none twice. */
  lemma GridAccountsForEveryImage(images: Option<seq<string>>)
    ensures Accounted(ImageGrid(images)) == |StoryImages(images)|
  {
  }

  /** Adding images beyond the fourth changes only the overlay count. */
  lemma MoreImagesSameTiles(a: seq<string>, b: seq<string>)
    requires |a| >= MaxTiles
    ensures ImageGrid(Some(a + b)).tiles == ImageGrid(Some(a)).tiles
  {
    assert (a + b)[..4] == a[..4];
  }

  /** What deleting a story does: whether the DELETE request is sent, and
      whether the success alert is shown and the list refetched. */
  datatype DeleteEffects = DeleteEffects(requestSent: bool, refetched: bool)

  /** The request goes out only after the user confirms, and the list is
      refetched only when the server then reports success. */
  function Delete(confirmed: bool, serverSuccess: bool): (e: DeleteEffects)
    ensures e.requestSent <==> confirmed
    ensures e.refetched <==> confirmed && serverSuccess
    ensures e.refetched ==> e.requestSent
  {
    DeleteEffects(confirmed, confirmed && serverSuccess)
  }
}

=== FILE: theme.dfy ===
/** The colour theme: the first theme a visit starts with, the toggle, the
    saved choice and the `dark` class on the document element. The saved
    value and the system preference are inputs. */
module Theme {

  import opened Optional

  const Light := "light"
  const Dark := "dark"

  /** The theme a visit starts with: a non-empty saved value as it is,
      otherwise the system preference. */
  function InitialTheme(saved: Option<string>, prefersDark: bool): (t: string)
    ensures t != ""
    ensures TruthyString(saved) ==> t == saved.value
    ensures !TruthyString(saved) ==> (t == Dark <==> prefersDark) && t in {Light, Dark}
  {
    if TruthyString(saved) then saved.value
    else if prefersDark then Dark
    else Light
  }

  /** The theme in force and the value saved in local storage. */
  datatype State = State(theme: string, saved: Option<string>)

  /** A visit starts with the saved value untouched and its theme read
      from it when it is non-empty, from the system preference otherwise. */
  function Start(saved: Option<string>, prefersDark: bool): (s: State)
    ensures s.saved == saved
    ensures TruthyString(saved) ==> s.theme == saved.value
    ensures !TruthyString(saved) ==> s.theme in {Light, Dark} && (s.theme == Dark <==> prefersDark)
  {
    State(InitialTheme(saved, prefersDark), saved)
  }

  /** The toggle: light becomes dark, anything else becomes light, and the
      new theme is saved. */
  function Toggle(s: State): (r: State)
    ensures r.theme in {Light, Dark}
    ensures r.theme == Dark <==> s.theme == Light
    ensures r.saved == Some(r.theme)
  {
    var next := if s.theme == Light then Dark else Light;
    State(next, Some(next))
  }

  /** Between the two known themes, toggling twice returns to the start
      (the saved value then holds that theme). */
  lemma ToggleTwice(s: State)
    requires s.theme in {Light, Dark}
    ensures Toggle(Toggle(s)).theme == s.theme
    ensures Toggle(Toggle(s)).saved == Some(s.theme)
  {
  }

  /** Any other saved value is replaced by light at the first toggle. */
  lemma ToggleNormalises(s: State)
    requires s.theme !in {Light, Dark}
    ensures Toggle(s).theme == Light && Toggle(Toggle(s)).theme == Dark
  {
  }

  /** A toggled theme survives a reload, whatever the system prefers. */
  lemma ToggleSurvivesReload(s: State, prefersDark: bool)
    ensures Start(Toggle(s).saved, prefersDark).theme == Toggle(s).theme
  {
  }

  /** The effect on the document element's classes: `dark` is present
      exactly under the dark theme, and the other classes stay. */
  function ApplyTheme(classes: set<string>, theme: string): (r: set<string>)
    ensures Dark in r <==> theme == Dark
    ensures r - {Dark} == classes - {Dark}
  {
    if theme == Dark then classes + {Dark} else classes - {Dark}
  }

  /** After a toggle the class list agrees with the saved value. */
  lemma ClassFollowsSavedTheme(classes: set<string>, s: State)
    ensures Dark in ApplyTheme(classes, Toggle(s).theme) <==> Toggle(s).saved == Some(Dark)
  {
  }
}
